=== FILE: README.md ===
# Booking rules of a sports-facility reservation site, in Dafny

This project models the core of a small web application for booking shared
sports facilities: a basketball court, a football pitch, a padel court and two
pool lanes. Users book one-hour slots, modify them and cancel them. Every
booking charges a deposit ("fianza") and every cancellation refunds it.

The model has three parts.

- **The server's booking rules.** These are the create, modify and delete views
  and their two validation chains. The model is a pure state machine over a
  `Store`: the reservation table, a per-user deposit table and the next
  primary key. The current time is a parameter `now`. Timestamps are whole
  seconds, so `Minute(t) == (t / 60) % 60` and one hour is 3600. Dafny's
  division agrees with Python's floor for a positive divisor, so this also
  holds before the epoch.
- **The data model.** This covers the `Espacio` enumeration, the `Reserva`
  record and its text rendering.
- **The client's booking wizard.** There are two variants: the booking
  management page and the stand-alone booking page. The model covers the
  fixed list of hourly slot labels and the grid that disables occupied slots.
  It also covers the end hour, the ISO start and end strings sent to the
  server, the three-step state machine, the reset that follows a successful
  booking and the choice between create (POST) and modify (PUT).

Modules: `Wrappers` (Option), `Decimal` (digit strings and `padStart`),
`Models`, `Views`, `StoreProperties` (invariants of the store and what follows
from them), `Slots` and `Wizard`.

What the proofs show about the code as written:

- **Conflicts are exact.** A booking conflicts only with a stored row that has
  exactly the same facility, start and end. Overlapping slots are not a
  conflict. The on-the-hour check reads only the minute, not the seconds. So a
  slot that starts 30 seconds after a stored one is accepted, and the two
  overlap (`DoubleBookingWithinTheFirstMinute`).
- **Reachable stores keep three invariants.** Take any store reachable from the
  empty one through the three views. Every row lasts one hour and has minute
  zero at both ends. Rows are in ascending key order. Each user's deposit is
  twice the number of reservations that user owns. So the deposit limit of 10
  stops a user after five bookings. The create cap of 10 reservations can
  never be what refuses a booking (`CreateCapNeverReached`). The create cap is
  `CREATE_CAP = 10`, as the code has it. Its error message says 3, and the
  application's own tests expect a cap of 3. The model follows the code: a
  fourth booking is accepted (`FourthReservationAccepted`).
- **The second conflict check is dead.** It looks for a stored row of the same
  facility that both starts and ends at the requested start. No one-hour row
  does, so it can never fire on such a store (`SecondConflictCheckNeverFires`).
- **Modify counts the row being edited toward its cap of 3.** A user with three
  reservations cannot modify any of them. A modification that changes nothing
  collides with its own stored row and is refused.
- **An edit on the management page can strand step 1.** On a freshly loaded
  page the step-1 "next" button is disabled, and only clicking a sport option
  enables it. (The page template is not modelled; the button is assumed to
  start disabled, the state the form reset leaves it in.) Starting an edit sets
  the sport but does not enable the button. So on a freshly loaded page, an
  edit followed by the step-2 back button leaves the wizard unable to leave
  step 1 (`GestionEditStuckAtStep1`). The stand-alone page enters edit mode
  only when its URL names a reservation id. It then clicks the sport option,
  so given an id, a sport and a date it does not have this problem.
- **A date change keeps the chosen hour.** On step 2, picking another date
  reloads the slot grid but does not clear the selected hour. If that hour is
  occupied on the new date, the wizard still reaches step 3 and submits it
  (`StaleHourSubmitted`); only the server's conflict check can refuse it.
- **The deposit default is assumed.** The deposit record's definition is not
  part of this model. Its default amount is taken to be 0 (`FIANZA_DEFAULT`).

## Model

| member | source | states |
|---|---|---|
| Views.EvaluateInvertsValue | gestion_reservas/views.py:103-114 | Each of the five facility strings maps to its member, so `Evaluate(ValueOf(e)) == Some(e)`; any other string gives None |
| Views.ValidatePost | gestion_reservas/views.py:116-135 | A deposit of 10 or more is refused before any other check; acceptance implies a one-hour slot, no time before `now`, minute zero at both ends, fewer than 10 owned rows and no exact match |
| Views.ValidatePostAccepts | gestion_reservas/views.py:116-135 | Validation passes exactly when all conditions of the chain hold together |
| Views.MessagesName | gestion_reservas/views.py:119-163 | Each validation error is returned with its own text. The cap's text says 3, which is the modify cap, while create refuses only at 10 |
| Views.ValidatePostOrder | gestion_reservas/views.py:117-134 | Checks run in order: the deposit, the duration, the cap, the exact-match conflict, the past-time check, the start-equals-end match, then the minute check; each check's error is returned when all earlier checks pass |
| Views.CapCountsPastReservations | gestion_reservas/views.py:123-124 | The cap counts every owned reservation, past ones included |
| Views.ApplyEdit | gestion_reservas/views.py:66-78 | Only supplied fields change the row; a supplied facility is read with `Evaluate` |
| Views.ValidatePut | gestion_reservas/views.py:137-164 | A supplied start or end must give a one-hour slot, not in the past, with minute zero; the owner must have fewer than 3 rows, the edited one counted; no stored row may match the edited slot exactly |
| Views.ValidatePutAccepts | gestion_reservas/views.py:137-164 | Modify validation passes exactly when the start checks, the end checks, the cap of 3 and the no-exact-match condition hold together |
| Views.ValidatePutOrder | gestion_reservas/views.py:138-163 | Checks run in order: the start's duration, past-time and minute checks, then the end's, then the cap of 3, then the exact-match conflict; each check's error is returned when all earlier checks pass |
| Views.ValidatePutIgnoresFianza | gestion_reservas/views.py:137-164 | Modify validation does not depend on any deposit |
| Views.CrearReserva | gestion_reservas/views.py:17-51 | Inserts only when validation passes and the facility is known; then exactly one row owned by the requester is appended and their deposit rises by 2; otherwise no row and no deposit amount changes |
| Views.ModificarReserva | gestion_reservas/views.py:62-83 | A missing or foreign id fails with nothing changed; the edit is saved exactly when modify validation of the edited row passes and its facility is known; a refusal carries validation's error and changes nothing; a save changes only the edited row, in the supplied fields |
| Views.EliminarReserva | gestion_reservas/views.py:93-101 | Removes the requester's row with that id and lowers their deposit by 2, with no lower bound; a missing or foreign id changes nothing |
| Views.IndexOf | gestion_reservas/views.py:64 | Finds a row only if it has that id and belongs to that user |
| Views.EnsureFianza | gestion_reservas/views.py:117 | Creating the deposit record on demand changes no amount |
| Views.ReservasDe | gestion_reservas/views.py:13 | A user's listing holds exactly that user's rows |
| Views.BorrarUsuario | gestion_reservas/models.py:19 | Deleting a user removes all of their reservations and leaves every other user's list unchanged |
| Models.EspacioChoices | gestion_reservas/models.py:7-13 | Exactly five distinct members; each stored value equals its label; values are distinct |
| Models.NewReserva | gestion_reservas/models.py:16 | A reservation made without a facility gets Padel |
| Views.UnknownFacilityNotDefaulted | gestion_reservas/views.py:24-46 | The create view passes the evaluated facility explicitly, so an unknown name is never defaulted to Padel: the booking is refused, or it passes validation and the insert fails |
| Models.DescribeNamesPk | gestion_reservas/models.py:21-22 | The text rendering starts with `Reserva {pk} `; both the primary key and the facility's stored value can be read back from it |
| Models.OnTheHourIgnoresSeconds | gestion_reservas/views.py:133-134 | The on-the-hour check passes any of the first 60 seconds of an hour |
| StoreProperties.CreatePreservesConsistent | gestion_reservas/views.py:35-51 | A booking keeps one-hour minute-zero rows, ascending keys, and deposit = 2 × owned rows |
| StoreProperties.ModifyPreservesConsistent | gestion_reservas/views.py:62-83 | A modification keeps every row one hour long with minute zero, the key order and every count |
| StoreProperties.DeletePreservesConsistent | gestion_reservas/views.py:93-101 | A cancellation keeps the invariants: one row and one refund leave together |
| StoreProperties.DeleteRemovesExactlyOne | gestion_reservas/views.py:95-97 | Cancelling removes exactly the requested row and keeps the others in order |
| StoreProperties.SecondConflictCheckNeverFires | gestion_reservas/views.py:130-131 | The start-equals-end conflict check never matches a stored one-hour slot |
| StoreProperties.CreateCapNeverReached | gestion_reservas/views.py:117-124 | In reachable stores the deposit limit stops a user at five reservations, so the cap-of-10 error is never returned |
| StoreProperties.ListingInIdOrder | gestion_reservas/models.py:28 | Listings are in ascending primary-key order |
| StoreProperties.ModifyBlockedAtCap | gestion_reservas/views.py:156-157 | A user who owns 3 reservations cannot modify any of them |
| StoreProperties.EmptyModifyConflictsWithItself | gestion_reservas/views.py:159-163 | An edit that changes nothing matches its own stored row and is refused as a conflict |
| StoreProperties.DoubleBookingWithinTheFirstMinute | gestion_reservas/views.py:125-134 | Two overlapping Padel bookings 30 seconds apart are both accepted |
| StoreProperties.MoveToFreeHourAccepted | gestion_reservas/views.py:62-83 | Moving a user's only booking one hour later is accepted and saves the new times in place |
| StoreProperties.FourthReservationAccepted | gestion_reservas/views.py:123-124 | A user who owns three reservations may book a fourth |
| Slots.HorariosDisponibles | gestion_reservas/static/nueva_gestion_reservas.js:30-33 | The loop over hours 8 to 21 builds the same list as the index-based construction |
| Slots.HorasShape | gestion_reservas/static/crear_reserva_mejorada.js:16 | There are 14 labels; label i is the two-digit hour i+8 followed by ":00"; all are distinct |
| Slots.SlotLabelShape | gestion_reservas/static/nueva_gestion_reservas.js:32 | A label is five characters: a two-digit hour that reads back as that hour, then ":00" |
| Slots.RenderHoras | gestion_reservas/static/nueva_gestion_reservas.js:186-209 | One button per slot, in slot order |
| Slots.SelectableIffFree | gestion_reservas/static/crear_reserva_mejorada.js:102-107 | After rendering, a slot can be clicked exactly when it is not occupied |
| Slots.FirstButton | gestion_reservas/static/nueva_gestion_reservas.js:343-344 | Finds the first button with that label, or reports that none has it |
| Slots.SelectMatching | gestion_reservas/static/crear_reserva_mejorada.js:112-113 | A preselection picks only an enabled button with the wanted label |
| Slots.SelectMatchingOnRendered | gestion_reservas/static/crear_reserva_mejorada.js:110-114 | A preselection succeeds exactly when the slot exists and is free |
| Slots.NormalizePreselect | gestion_reservas/static/crear_reserva_mejorada.js:111 | A length-5 hour is kept; a shorter one is left-padded with '0' to length 5 |
| Slots.PreselectFindsSlot | gestion_reservas/static/nueva_gestion_reservas.js:342-346 | The edit hour padded to two digits plus ":00" is that slot's label; the full label and the label missing its leading zero also normalise to it |
| Slots.BeforeColon | gestion_reservas/static/nueva_gestion_reservas.js:242 | The hour part is the colon-free text before the first colon |
| Slots.EndHourOfSlot | gestion_reservas/static/nueva_gestion_reservas.js:242 | For every slot, the end hour is the start hour + 1 in two digits, at most 22 |
| Slots.ResumenOfSlot | gestion_reservas/static/crear_reserva_mejorada.js:131-132 | The summary of a slot reads "start label - next slot's label" |
| Slots.MomentsOneHourApart | gestion_reservas/static/nueva_gestion_reservas.js:262-264 | Every slot label is the label of an hour h from 8 to 21; its start and end strings share the date, and their times read as hour h and exactly one hour later, ending no later than 22:00 |
| Slots.SlotRequestShape | gestion_reservas/static/crear_reserva_mejorada.js:140-142 | For every slot label, the start string is the date, a `T` and the hour the label shows; the end string is the same date at the next hour |
| Slots.SubmittedSlotHasServerShape | gestion_reservas/static/crear_reserva_mejorada.js:140-142 | Read against a midnight, the submitted pair passes the server's duration and on-the-hour checks |
| Wizard.Siguiente1Guard | gestion_reservas/static/nueva_gestion_reservas.js:136-147 | Step 1 moves to step 2 exactly when a sport is chosen and the step-1 button has been enabled; otherwise nothing changes |
| Wizard.MejoradaSportEnablesNext | gestion_reservas/static/crear_reserva_mejorada.js:58-69 | On the stand-alone page a chosen sport always comes with an enabled step-1 button, so step 1 is left exactly when a sport is chosen |
| Wizard.GestionEditStuckAtStep1 | gestion_reservas/static/nueva_gestion_reservas.js:315-336 | On a freshly loaded management page (step-1 button disabled, as assumed of the template), an edit followed by going back leaves step 1 impossible to leave although the edit chose a sport; the stand-alone page, given an id, a sport and a date, moves on |
| Wizard.EditEntry | gestion_reservas/static/crear_reserva_mejorada.js:154-161 | Editing on the management page records the id, sport and date and goes to step 2; on the stand-alone page an empty id changes nothing, and a non-empty one is recorded with a given sport, going to step 2 only when given a date |
| Wizard.LoadedSlotsGuardClicks | gestion_reservas/static/nueva_gestion_reservas.js:185-205 | After the slots of a date load, a click never picks an occupied slot; a free slot's button picks it, an occupied one does nothing |
| Wizard.PreselectionGestion | gestion_reservas/static/nueva_gestion_reservas.js:339-348 | On a rendered grid, the management page's preselection of a bare hour number chooses that hour's slot when it is free and changes nothing when it is occupied |
| Wizard.PreselectionMejorada | gestion_reservas/static/crear_reserva_mejorada.js:110-114 | On a rendered grid, the stand-alone page's preselection of a full slot label chooses that slot when it is free and changes nothing when it is occupied |
| Wizard.PreselectionMejoradaUnpadded | gestion_reservas/static/crear_reserva_mejorada.js:110-114 | A label for an hour before 10 given without its leading zero is padded back and preselects the same slot, on the same free/occupied condition |
| Wizard.CambiarFechaKeepsHour | gestion_reservas/static/nueva_gestion_reservas.js:153-158 | On step 2 a date change sets the date and keeps everything else, the chosen hour included; on other steps it changes nothing |
| Wizard.StaleHourSubmitted | gestion_reservas/static/nueva_gestion_reservas.js:153-158 | Choosing a free hour, then a date on which that hour is occupied, reaches step 3 with the occupied hour, which is then submitted for the new date |
| Wizard.BackButtons | gestion_reservas/static/nueva_gestion_reservas.js:226-248 | The back buttons of steps 2 and 3 go back one step and change nothing else |
| Wizard.RunKeepsEdit | gestion_reservas/static/nueva_gestion_reservas.js:102-108 | Without a new edit, a sequence of events keeps the edited id, except that a reset on the management page clears it |
| Wizard.EditSubmitsPut | gestion_reservas/static/nueva_gestion_reservas.js:266-267 | After an edit starts, and short of another edit or a reset, a complete submission is a PUT to that reservation's modify URL |
| Wizard.FreshSubmitsPost | gestion_reservas/static/nueva_gestion_reservas.js:266-267 | From a fresh page without an edit, a complete submission is a POST to the create URL |
| Wizard.Siguiente2Guard | gestion_reservas/static/nueva_gestion_reservas.js:230-234 | Step 2 moves to step 3 exactly when both a date and an hour are chosen |
| Wizard.NextPreservesInv | gestion_reservas/static/crear_reserva_mejorada.js:58-126 | Every event keeps the step in 1..3 and only slot labels on buttons and as the chosen hour; step 3 always has a date and an hour |
| Wizard.ClickSelectsOnlyEnabled | gestion_reservas/static/nueva_gestion_reservas.js:196-205 | Only an enabled button changes the chosen hour, and to its own label |
| Wizard.MejoradaDefaultsDate | gestion_reservas/static/crear_reserva_mejorada.js:67-74 | On the stand-alone page, leaving step 1 fills an empty date with today's date; the management page does not |
| Wizard.MostrarPaso | gestion_reservas/static/nueva_gestion_reservas.js:36-68 | After showing step n, only step n is visible, `pasoActual == n`, and exactly the indicators for steps up to n are highlighted |
| Wizard.ResetClearsAll | gestion_reservas/static/nueva_gestion_reservas.js:102-123 | On the management page, the reset after a successful booking clears every selection and the edit, returns to step 1 and is idempotent |
| Wizard.SubmitRefusedIff | gestion_reservas/static/nueva_gestion_reservas.js:254-257 | Submit is refused exactly when the sport, the date or the hour is empty |
| Wizard.SubmitDispatch | gestion_reservas/static/crear_reserva_mejorada.js:143-145 | With a reservation id it sends a PUT to the modify URL naming that id; without one it sends a POST to the create URL |
| Wizard.SubmitSendsOneHourSlot | gestion_reservas/static/nueva_gestion_reservas.js:262-278 | From any reachable state, a submission names the chosen sport, starts on the chosen date at the hour the chosen label shows, and ends on that date exactly one hour later |

## Left out

- Request parsing, JSON responses and HTTP status codes are left out. So are the login requirement and database persistence. The store is an in-memory value; each view returns an `Outcome` in place of a response.
- Timezone handling (`make_aware`) is the identity. Its failure on an already-aware value is not modelled. With timezone support enabled, that failure would make `validate_put` raise when a modify request leaves out a start or end (gestion_reservas/views.py:160-161). It would do so before the final conflict check. So StoreProperties.EmptyModifyConflictsWithItself describes the identity reading.
- `datetime.fromisoformat` is left out. The server receives integer timestamps. On the client side, `ClockSeconds` reads only the `HH:MM:SS` part, and a date stands for its midnight in `SubmittedSlotHasServerShape`.
- The clock is read more than once. The create view passes `now()` as `created_at` (gestion_reservas/views.py:31), but the field's `auto_now_add` (gestion_reservas/models.py:20) replaces it with the time of the insert. The past-time check at gestion_reservas/views.py:128 may read the clock twice more. The model uses one `now` for all these reads.
- The check-then-insert race between concurrent requests is left out. There is no locking or transaction to model.
- A missing JSON field that would raise in the server is left out. Only absent or empty modify fields (treated as not supplied) are modelled.
- Models.Describe: the timestamps' text form is the parameter `showTime`. Python's calendar rendering of a datetime is not modelled, so only the key and the facility are read back.
- Slots.EndHour: JavaScript `parseInt` skips leading whitespace, accepts a sign and reads a `0x` prefix as hexadecimal. Only unsigned decimal prefixes are modelled. A string with none of these gives "NaN" in the model; a slot label never has them.
- The deposit record's own definition is not part of this model. Its default is assumed to be 0. Whether deleting a user also deletes their deposit is unknown, so `BorrarUsuario` leaves deposits alone.
- DOM work is left out: CSS classes, alerts, the loading modal, the fetches of occupied slots (their results arrive as the `HorariosCargados` event) and page reloads. Date formatting and the `min` date attribute are left out too.
- Wizard events fire only while their step's panel is shown, because hidden elements cannot be clicked. The edit buttons, slot-list loading and preselection are always available.
- Wizard.Apply: neither page has a reset control for the user. `Reset` stands for the form reset that the management page runs after a successful booking, just before it reloads (gestion_reservas/static/nueva_gestion_reservas.js:86-90); the reload itself is left out, and the reset state is the freshly loaded page. The stand-alone page instead navigates to the reservation list (gestion_reservas/static/crear_reserva_mejorada.js:46), which is not followed, so its `Reset` leaves the state unchanged. Its edit mode runs only when the URL carries a non-empty id (gestion_reservas/static/crear_reserva_mejorada.js:155) and assumes the sport option named in the URL exists on the page.
- Wizard.Inicial: the page template is not part of this model. The step-1 button is taken to start disabled, which is the state the form reset leaves it in; `GestionEditStuckAtStep1` rests on this assumption. The step-2 button's flag is not kept, because its handler checks for a chosen hour anyway.
- The older single-form booking script, the reservation list script, authentication, the admin customisation and the URL routing table are not part of this model.

=== FILE: decimal.dfy ===
/**
 * Decimal rendering and parsing of natural numbers, and left padding of strings.
 * These stand for JavaScript's `Number.prototype.toString`, `parseInt` on digit
 * strings and `String.prototype.padStart`, and for Python's `str` on an `int`.
 */
module Decimal {
  import opened Wrappers

  predicate IsDigit(c: char) {
    '0' <= c <= '9'
  }

  predicate AllDigits(s: string) {
    forall i :: 0 <= i < |s| ==> IsDigit(s[i])
  }

  function DigitChar(d: nat): (c: char)
    requires d < 10
    ensures IsDigit(c)
  {
    ('0' as int + d) as char
  }

  function DigitValue(c: char): (d: nat)
    requires IsDigit(c)
    ensures d < 10
  {
    c as int - '0' as int
  }

  /** The canonical decimal rendering of `n`: digits only, no leading zero. */
  function Show(n: nat): (s: string)
    ensures 1 <= |s|
    ensures AllDigits(s)
    ensures s[0] == '0' ==> n == 0 && |s| == 1
    ensures n < 10 <==> |s| == 1
    decreases n
  {
    if n < 10 then [DigitChar(n)] else Show(n / 10) + [DigitChar(n % 10)]
  }

  /** The number a string of digits denotes, most significant digit first. */
  function Value(s: string): nat
    requires AllDigits(s)
  {
    if s == [] then 0 else Value(s[..|s| - 1]) * 10 + DigitValue(s[|s| - 1])
  }

  /** The digits of `s` up to the first non-digit. */
  function LeadingDigits(s: string): (r: string)
    ensures AllDigits(r)
    ensures r <= s
    ensures |r| < |s| ==> !IsDigit(s[|r|])
  {
    if s == [] || !IsDigit(s[0]) then [] else [s[0]] + LeadingDigits(s[1..])
  }

  /**
   * `parseInt` restricted to unsigned decimal input: the value of the leading
   * digits, or None (JavaScript's NaN) when the string does not start with one.
   * Leading whitespace, a sign and a `0x` prefix are not modelled.
   */
  function ParseLeadingInt(s: string): (r: Option<nat>)
    ensures r.None? <==> (s == [] || !IsDigit(s[0]))
  {
    var ds := LeadingDigits(s);
    if ds == [] then None else Some(Value(ds))
  }

  /** `s.padStart(width, [c])`: `s` preceded by copies of `c` up to `width` characters. */
  function PadStart(s: string, width: nat, c: char): (r: string)
    ensures |s| >= width ==> r == s
    ensures |s| < width ==> |r| == width
  {
    if |s| >= width then s else seq(width - |s|, _ => c) + s
  }

  /**
   * The padded string ends with `s` and holds `c` before it. Kept apart from
   * `PadStart`, whose every use would otherwise carry these facts.
   */
  lemma PadStartShape(s: string, width: nat, c: char)
    ensures var r := PadStart(s, width, c);
      && r[|r| - |s|..] == s
      && forall i :: 0 <= i < |r| - |s| ==> r[i] == c
  {
  }

  /** A number as two digits, zero-padded: `n.toString().padStart(2, '0')`. */
  function Pad2(n: nat): string {
    PadStart(Show(n), 2, '0')
  }

  lemma ValueOfSnoc(s: string, c: char)
    requires AllDigits(s) && IsDigit(c)
    ensures AllDigits(s + [c])
    ensures Value(s + [c]) == Value(s) * 10 + DigitValue(c)
  {
    assert (s + [c])[..|s + [c]| - 1] == s;
  }

  /** Reading back what `Show` wrote gives the number again. */
  lemma {:induction false} ValueOfShow(n: nat)
    ensures Value(Show(n)) == n
    decreases n
  {
    if n >= 10 {
      ValueOfShow(n / 10);
      ValueOfSnoc(Show(n / 10), DigitChar(n % 10));
    }
  }

  /** Leading zeros do not change the value of a digit string. */
  lemma {:induction false} ValueOfLeadingZero(s: string)
    requires AllDigits(s)
    ensures AllDigits("0" + s)
    ensures Value("0" + s) == Value(s)
    decreases |s|
  {
    if s != [] {
      var init := s[..|s| - 1];
      ValueOfLeadingZero(init);
      assert ("0" + s)[..|"0" + s| - 1] == "0" + init;
    }
  }

  /** `Pad2` is a two-digit rendering of every number below one hundred. */
  lemma Pad2OfSmall(n: nat)
    requires n < 100
    ensures |Pad2(n)| == 2
    ensures AllDigits(Pad2(n))
    ensures Value(Pad2(n)) == n
  {
    ValueOfShow(n);
    if n < 10 {
      assert Pad2(n) == "0" + Show(n);
      ValueOfLeadingZero(Show(n));
    } else {
      assert Show(n) == Show(n / 10) + [DigitChar(n % 10)];
    }
  }

  /** On a string of digits followed by anything else, `parseInt` reads exactly those digits. */
  lemma {:induction false} LeadingDigitsOfDigitsThen(ds: string, rest: string)
    requires AllDigits(ds)
    requires rest == [] || !IsDigit(rest[0])
    ensures LeadingDigits(ds + rest) == ds
    decreases |ds|
  {
    if ds != [] {
      assert (ds + rest)[1..] == ds[1..] + rest;
      LeadingDigitsOfDigitsThen(ds[1..], rest);
    }
  }
}

=== FILE: models.dfy ===
/**
 * The data model of the booking application: the five bookable facilities,
 * the reservation record, and the clock arithmetic the booking rules use.
 * Timestamps are whole seconds since the epoch.
 */
module Models {
  import opened Wrappers
  import opened Decimal

  /** A bookable facility (`Espacio` choices). */
  datatype Espacio = Baloncesto | Futbol | Padel | Piscina1 | Piscina2

  /** One entry of a choices table: the stored value and the human-readable label. */
  datatype ChoiceEntry = ChoiceEntry(value: string, display: string)

  function Choice(e: Espacio): ChoiceEntry {
    match e
    case Baloncesto => ChoiceEntry("Baloncesto", "Baloncesto")
    case Futbol => ChoiceEntry("Fútbol", "Fútbol")
    case Padel => ChoiceEntry("Padel", "Padel")
    case Piscina1 => ChoiceEntry("Piscina1", "Piscina1")
    case Piscina2 => ChoiceEntry("Piscina2", "Piscina2")
  }

  /** The string stored in the database column for `e`. */
  function ValueOf(e: Espacio): string {
    Choice(e).value
  }

  function LabelOf(e: Espacio): string {
    Choice(e).display
  }

  /** The members of the enumeration, in declaration order. */
  const Members: seq<Espacio> := [Baloncesto, Futbol, Padel, Piscina1, Piscina2]

  /** The facility a reservation gets when none is given. */
  const DEFAULT_ESPACIO: Espacio := Padel

  /**
   * The enumeration has exactly five members, listed once each; every member
   * stores its own label as its value, and no two members share a value.
   */
  lemma EspacioChoices()
    ensures |Members| == 5
    ensures forall e: Espacio :: e in Members
    ensures forall i, j :: 0 <= i < j < |Members| ==> Members[i] != Members[j]
    ensures forall e: Espacio :: ValueOf(e) == LabelOf(e)
    ensures forall e1: Espacio, e2: Espacio :: ValueOf(e1) == ValueOf(e2) ==> e1 == e2
  {
    forall e: Espacio ensures e in Members {
      match e
      case Baloncesto => assert Members[0] == e;
      case Futbol => assert Members[1] == e;
      case Padel => assert Members[2] == e;
      case Piscina1 => assert Members[3] == e;
      case Piscina2 => assert Members[4] == e;
    }
  }

  type UserId = nat

  /** A reservation row; `id` is the primary key, `user` the owning user. */
  datatype Reserva = Reserva(
    id: nat,
    espacio: Espacio,
    inicio: int,
    fin: int,
    user: UserId,
    createdAt: int)

  /** A reservation as the model constructor builds it: a missing facility falls back to the default. */
  function NewReserva(id: nat, espacio: Option<Espacio>, inicio: int, fin: int, user: UserId, createdAt: int): (r: Reserva)
    ensures espacio.None? ==> r.espacio == DEFAULT_ESPACIO
    ensures espacio.Some? ==> r.espacio == espacio.value
    ensures r.id == id && r.inicio == inicio && r.fin == fin && r.user == user && r.createdAt == createdAt
  {
    Reserva(id, espacio.GetOr(DEFAULT_ESPACIO), inicio, fin, user, createdAt)
  }

  // ---------------------------------------------------------------------------
  // Clock arithmetic

  /**
   * Durations in seconds. Each is a product by a literal, so that the
   * arithmetic about them stays linear.
   */
  function Minutes(n: int): int { n * 60 }
  function Hours(n: int): int { n * 3600 }
  function Days(n: int): int { n * 86400 }

  const MINUTE: int := Minutes(1)
  const HOUR: int := Hours(1)
  const DAY: int := Days(1)

  /** The minute field of a timestamp (0..59); the seconds field is ignored. */
  function Minute(t: int): (m: int)
    ensures 0 <= m < 60
  {
    (t / 60) % 60
  }

  predicate OnTheHour(t: int) {
    Minute(t) == 0
  }

  /** `OnTheHour` looks at the minute only: every second of the first minute of an hour passes. */
  lemma OnTheHourIgnoresSeconds(h: int, sec: int)
    requires 0 <= sec < 60
    ensures OnTheHour(Hours(h) + sec)
  {
    assert Hours(h) + sec == (h * 60) * 60 + sec;
    assert (Hours(h) + sec) / 60 == h * 60;
  }

  // ---------------------------------------------------------------------------
  // Textual rendering

  /**
   * `Reserva {pk} para {espacio} de {inicio} a {fin}`; the rendering of a
   * timestamp is the parameter `showTime`.
   */
  function Describe(r: Reserva, showTime: int -> string): (s: string)
    ensures |s| > 8 && s[..8] == "Reserva "
  {
    "Reserva " + (Show(r.id) + DescribeTail(r, showTime))
  }

  /** What follows the key in a rendering: facility and the two timestamps. */
  function DescribeTail(r: Reserva, showTime: int -> string): (s: string)
    ensures |s| > 0 && s[0] == ' '
  {
    " para " + (ValueOf(r.espacio) + DescribeTimes(r, showTime))
  }

  /** What follows the facility in a rendering: the two timestamps. */
  function DescribeTimes(r: Reserva, showTime: int -> string): (s: string)
    ensures |s| > 0 && s[0] == ' '
  {
    " de " + showTime(r.inicio) + " a " + showTime(r.fin)
  }

  /** The text before the first space. */
  function UpToSpace(s: string): (r: string)
    ensures r <= s && ' ' !in r
  {
    if s == [] || s[0] == ' ' then [] else [s[0]] + UpToSpace(s[1..])
  }

  /** A space-free word followed by a space is read back whole. */
  lemma {:induction false} UpToSpaceOf(w: string, rest: string)
    requires ' ' !in w
    requires |rest| > 0 && rest[0] == ' '
    ensures UpToSpace(w + rest) == w
    decreases |w|
  {
    if w != [] {
      assert (w + rest)[1..] == w[1..] + rest;
      UpToSpaceOf(w[1..], rest);
    }
  }

  /** No stored facility value contains a space. */
  lemma ValueHasNoSpace(e: Espacio)
    ensures ' ' !in ValueOf(e)
  {
    match e
    case Baloncesto =>
    case Futbol =>
    case Padel =>
    case Piscina1 =>
    case Piscina2 =>
  }

  /** Reads the primary key back from a rendering: the digits after `Reserva `, closed by a space. */
  function ParsePk(s: string): Option<nat> {
    if |s| < 8 || s[..8] != "Reserva " then None
    else
      var ds := LeadingDigits(s[8..]);
      if ds == [] || |ds| == |s| - 8 || s[8 + |ds|] != ' ' then None else Some(Value(ds))
  }

  /**
   * Reads the stored facility value back from a rendering: the word after
   * `Reserva {digits} para `.
   */
  function ParseValue(s: string): Option<string> {
    if |s| < 8 || s[..8] != "Reserva " then None
    else
      var tail := s[8 + |LeadingDigits(s[8..])|..];
      if |tail| < 6 || tail[..6] != " para " then None else Some(UpToSpace(tail[6..]))
  }

  /**
   * The rendering identifies its reservation: the primary key and the
   * facility's stored value can be read back from it. Values are distinct
   * (`EspacioChoices`), so the value names the facility.
   */
  lemma DescribeNamesPk(r: Reserva, showTime: int -> string)
    ensures ParsePk(Describe(r, showTime)) == Some(r.id)
    ensures ParseValue(Describe(r, showTime)) == Some(ValueOf(r.espacio))
  {
    ValueOfShow(r.id);
    ParsePkOf(Show(r.id), DescribeTail(r, showTime));
    ValueHasNoSpace(r.espacio);
    ParseValueOf(Show(r.id), ValueOf(r.espacio), DescribeTimes(r, showTime));
  }

  /** A space-free word after the key and ` para `, closed by a space, is read back by `ParseValue`. */
  lemma ParseValueOf(ds: string, w: string, rest: string)
    requires AllDigits(ds)
    requires ' ' !in w
    requires |rest| > 0 && rest[0] == ' '
    ensures ParseValue("Reserva " + (ds + (" para " + (w + rest)))) == Some(w)
  {
    var tail := " para " + (w + rest);
    var s := "Reserva " + (ds + tail);
    assert s[..8] == "Reserva ";
    assert s[8..] == ds + tail;
    LeadingDigitsOfDigitsThen(ds, tail);
    assert s[8 + |ds|..] == tail;
    assert tail[..6] == " para ";
    assert tail[6..] == w + rest;
    UpToSpaceOf(w, rest);
  }

  /** A key written as digits and closed by a space is read back by `ParsePk`. */
  lemma ParsePkOf(ds: string, rest: string)
    requires ds != [] && AllDigits(ds)
    requires |rest| > 0 && rest[0] == ' '
    ensures ParsePk("Reserva " + (ds + rest)) == Some(Value(ds))
  {
    var s := "Reserva " + (ds + rest);
    assert s[..8] == "Reserva ";
    assert s[8..] == ds + rest;
    LeadingDigitsOfDigitsThen(ds, rest);
    assert s[8 + |ds|] == ' ';
  }

  /** Rows ordered by ascending primary key, each key once (the model's default ordering). */
  predicate ByIdAscending(rs: seq<Reserva>) {
    forall i, j :: 0 <= i < j < |rs| ==> rs[i].id < rs[j].id
  }
}

=== FILE: slots.dfy ===
/**
 * The hourly slots of the booking wizards: their labels, the grid of slot
 * buttons with occupied slots disabled, the end hour of a slot, and the
 * start and end strings sent to the server.
 */
module Slots {
  import opened Wrappers
  import opened Decimal
  import opened Models

  const FIRST_HOUR: nat := 8
  const SLOT_COUNT: nat := 14

  /** The label of the slot starting at hour `h`: two digits, then ":00". */
  function SlotLabel(h: nat): string {
    Pad2(h) + ":00"
  }

  /** The slot labels, built index by index: label `i` is hour `i + 8`. */
  function Horas(): seq<string> {
    seq(SLOT_COUNT, i requires 0 <= i < SLOT_COUNT => SlotLabel(i + FIRST_HOUR))
  }

  /** The slot labels, built by a counting loop over the hours 8 to 21. */
  method HorariosDisponibles() returns (hs: seq<string>)
    ensures hs == Horas()
  {
    hs := [];
    var i := 8;
    while i <= 21
      invariant 8 <= i <= 22
      invariant hs == Horas()[..i - 8]
    {
      HorasPrefix(i - 8);
      hs := hs + [PadStart(Show(i), 2, '0') + ":00"];
      i := i + 1;
    }
    assert Horas()[..|Horas()|] == Horas();
  }

  /** The first `k + 1` labels are the first `k` followed by the label of hour `k + 8`. */
  lemma HorasPrefix(k: nat)
    requires k < SLOT_COUNT
    ensures Horas()[..k + 1] == Horas()[..k] + [SlotLabel(k + FIRST_HOUR)]
  {
    PrefixSnoc(Horas(), k);
  }

  lemma PrefixSnoc<T>(s: seq<T>, k: nat)
    requires k < |s|
    ensures s[..k + 1] == s[..k] + [s[k]]
  {
  }

  /** The fields of a slot label: a two-digit hour, a colon, two zeros. */
  lemma SlotLabelShape(h: nat)
    requires h < 100
    ensures |SlotLabel(h)| == 5
    ensures SlotLabel(h)[..2] == Pad2(h) && AllDigits(Pad2(h)) && Value(Pad2(h)) == h
    ensures SlotLabel(h)[2..] == ":00"
  {
    Pad2OfSmall(h);
  }

  /** There are fourteen labels, "08:00" to "21:00", one per hour, each once. */
  lemma HorasShape()
    ensures |Horas()| == SLOT_COUNT
    ensures forall i :: 0 <= i < |Horas()| ==>
      |Horas()[i]| == 5 && Horas()[i][2..] == ":00" && AllDigits(Horas()[i][..2])
      && Value(Horas()[i][..2]) == i + FIRST_HOUR
    ensures forall i, j :: 0 <= i < j < |Horas()| ==> Horas()[i] != Horas()[j]
  {
    forall i | 0 <= i < |Horas()|
      ensures |Horas()[i]| == 5 && Horas()[i][2..] == ":00" && AllDigits(Horas()[i][..2])
        && Value(Horas()[i][..2]) == i + FIRST_HOUR
    {
      SlotLabelShape(i + FIRST_HOUR);
    }
  }

  /** Every slot label is the label of an hour from 8 to 21. */
  lemma SlotOfLabel(hora: string) returns (h: nat)
    requires hora in Horas()
    ensures FIRST_HOUR <= h < FIRST_HOUR + SLOT_COUNT && hora == SlotLabel(h)
  {
    var i :| 0 <= i < |Horas()| && Horas()[i] == hora;
    h := i + FIRST_HOUR;
  }

  // ---------------------------------------------------------------------------
  // The grid of slot buttons

  datatype Boton = Boton(hora: string, disabled: bool)

  /** One button per slot, in slot order, disabled when its label is among the occupied ones. */
  function RenderHoras(ocupados: seq<string>): (grid: seq<Boton>)
    ensures |grid| == |Horas()|
    ensures forall i :: 0 <= i < |grid| ==> grid[i].hora == Horas()[i]
  {
    seq(|Horas()|, i requires 0 <= i < |Horas()| => Boton(Horas()[i], Horas()[i] in ocupados))
  }

  /** The labels a user can click. */
  function Selectable(grid: seq<Boton>): set<string> {
    set i | 0 <= i < |grid| && !grid[i].disabled :: grid[i].hora
  }

  /** After rendering, a slot can be chosen exactly when it is not occupied. */
  lemma SelectableIffFree(ocupados: seq<string>, hora: string)
    ensures hora in Selectable(RenderHoras(ocupados)) <==> hora in Horas() && hora !in ocupados
  {
    var grid := RenderHoras(ocupados);
    if hora in Horas() && hora !in ocupados {
      var i :| 0 <= i < |Horas()| && Horas()[i] == hora;
      assert grid[i].hora == hora && !grid[i].disabled;
    }
  }

  /** The index of the first button labelled `hora`. */
  function FirstButton(grid: seq<Boton>, hora: string): (r: Option<nat>)
    ensures r.Some? ==> (r.value < |grid| && grid[r.value].hora == hora
      && forall j :: 0 <= j < r.value ==> grid[j].hora != hora)
    ensures r.None? ==> forall j :: 0 <= j < |grid| ==> grid[j].hora != hora
  {
    FirstButtonFrom(grid, hora, 0)
  }

  /** The index of the first button labelled `hora` at or after index `i`. */
  function FirstButtonFrom(grid: seq<Boton>, hora: string, i: nat): (r: Option<nat>)
    requires i <= |grid|
    ensures r.Some? ==> (i <= r.value < |grid| && grid[r.value].hora == hora
      && forall j :: i <= j < r.value ==> grid[j].hora != hora)
    ensures r.None? ==> forall j :: i <= j < |grid| ==> grid[j].hora != hora
    decreases |grid| - i
  {
    if i == |grid| then None
    else if grid[i].hora == hora then Some(i)
    else FirstButtonFrom(grid, hora, i + 1)
  }

  /** The label selected when the wizard preselects `wanted`: only an enabled button is chosen. */
  function SelectMatching(grid: seq<Boton>, wanted: string): (r: Option<string>)
    ensures r.Some? ==> r.value == wanted && wanted in Selectable(grid)
  {
    match FirstButton(grid, wanted)
    case None => None
    case Some(i) => if grid[i].disabled then None else Some(wanted)
  }

  /** On a rendered grid a preselection succeeds exactly when the slot exists and is free. */
  lemma SelectMatchingOnRendered(ocupados: seq<string>, wanted: string)
    ensures SelectMatching(RenderHoras(ocupados), wanted).Some? <==> wanted in Horas() && wanted !in ocupados
  {
    var grid := RenderHoras(ocupados);
    SelectableIffFree(ocupados, wanted);
    if wanted in Horas() {
      var i :| 0 <= i < |Horas()| && Horas()[i] == wanted;
      assert grid[i].hora == wanted;
    }
  }

  /** A preselected hour from the edit link: kept if five characters long, else left-padded with zeros to five. */
  function NormalizePreselect(preselect: string): (norm: string)
    ensures |preselect| == 5 ==> norm == preselect
    ensures |preselect| < 5 ==> (|norm| == 5
      && (forall i :: 0 <= i < 5 - |preselect| ==> norm[i] == '0')
      && forall i :: 0 <= i < |preselect| ==> norm[5 - |preselect| + i] == preselect[i])
    ensures |preselect| > 5 ==> norm == preselect
  {
    if |preselect| == 5 then preselect else PadStart(preselect, 5, '0')
  }

  /** A preselected hour from an edit button: the hour number, zero-padded to two digits, then ":00". */
  function EditLabel(hora: string): string {
    PadStart(hora, 2, '0') + ":00"
  }

  /**
   * Both preselection forms find the slot of hour `h`: the full label and the
   * label with its leading zero dropped, and the bare hour number.
   */
  lemma PreselectFindsSlot(h: nat)
    requires FIRST_HOUR <= h < FIRST_HOUR + SLOT_COUNT
    ensures NormalizePreselect(SlotLabel(h)) == SlotLabel(h)
    ensures h < 10 ==> NormalizePreselect(SlotLabel(h)[1..]) == SlotLabel(h)
    ensures EditLabel(Show(h)) == SlotLabel(h)
  {
    SlotLabelShape(h);
    if h < 10 {
      assert SlotLabel(h)[0] == '0' by {
        assert |Show(h)| == 1;
        assert Pad2(h)[0] == '0';
      }
      DroppedZeroRestored(SlotLabel(h));
    }
  }

  /** A five-character label with a leading zero is restored from its last four characters. */
  lemma DroppedZeroRestored(lbl: string)
    requires |lbl| == 5 && lbl[0] == '0'
    ensures NormalizePreselect(lbl[1..]) == lbl
  {
    var n := NormalizePreselect(lbl[1..]);
    forall i | 0 <= i < 5
      ensures n[i] == lbl[i]
    {
      if i > 0 {
        assert n[5 - 4 + (i - 1)] == lbl[1..][i - 1];
      }
    }
  }

  // ---------------------------------------------------------------------------
  // End hour and the submitted timestamps

  /** The text before the first colon (`s.split(':')[0]`). */
  function BeforeColon(s: string): (r: string)
    ensures r <= s
    ensures ':' !in r
    ensures |r| < |s| ==> s[|r|] == ':'
  {
    if s == [] || s[0] == ':' then [] else [s[0]] + BeforeColon(s[1..])
  }

  /** The hour after the one `hora` starts with, zero-padded to two digits; "NaN" when it has no hour. */
  function EndHour(hora: string): string {
    match ParseLeadingInt(BeforeColon(hora))
    case None => "NaN"
    case Some(h) => Pad2(h + 1)
  }

  /** Splitting at the first colon returns the colon-free text before it. */
  lemma {:induction false} BeforeColonOf(ds: string, rest: string)
    requires ':' !in ds
    ensures BeforeColon(ds + ":" + rest) == ds
    decreases |ds|
  {
    if ds != [] {
      assert (ds + ":" + rest)[1..] == ds[1..] + ":" + rest;
      BeforeColonOf(ds[1..], rest);
    }
  }

  /** The end hour of slot `h` is hour `h + 1`, written with two digits, at most 22. */
  lemma EndHourOfSlot(h: nat)
    requires FIRST_HOUR <= h < FIRST_HOUR + SLOT_COUNT
    ensures EndHour(SlotLabel(h)) == Pad2(h + 1)
    ensures |EndHour(SlotLabel(h))| == 2 && AllDigits(EndHour(SlotLabel(h)))
    ensures Value(EndHour(SlotLabel(h))) == h + 1 <= 22
  {
    HourOfLabel(h);
    ParsePad2(h);
    assert EndHour(SlotLabel(h)) == Pad2(h + 1);
    Pad2OfSmall(h + 1);
  }

  /** A label split at its colon gives back its two-digit hour. */
  lemma HourOfLabel(h: nat)
    requires h < 100
    ensures BeforeColon(SlotLabel(h)) == Pad2(h)
  {
    var hh := Pad2(h);
    Pad2OfSmall(h);
    assert ':' !in hh by {
      assert !IsDigit(':');
    }
    assert SlotLabel(h) == hh + ":" + "00";
    BeforeColonOf(hh, "00");
  }

  /** `parseInt` reads a two-digit rendering back as its number. */
  lemma ParsePad2(h: nat)
    requires h < 100
    ensures ParseLeadingInt(Pad2(h)) == Some(h)
  {
    var hh := Pad2(h);
    Pad2OfSmall(h);
    LeadingDigitsOfDigitsThen(hh, []);
    assert hh + [] == hh;
  }

  /** The summary line of a selection: start label, dash, end label. */
  function ResumenHorario(hora: string): string {
    hora + " - " + EndHour(hora) + ":00"
  }

  /** The summary of slot `h` names it and the slot after it. */
  lemma ResumenOfSlot(h: nat)
    requires FIRST_HOUR <= h < FIRST_HOUR + SLOT_COUNT
    ensures ResumenHorario(SlotLabel(h)) == SlotLabel(h) + " - " + SlotLabel(h + 1)
  {
    EndHourOfSlot(h);
    var lbl, fin := SlotLabel(h), Pad2(h + 1);
    assert ResumenHorario(lbl) == lbl + " - " + fin + ":00";
    assert SlotLabel(h + 1) == fin + ":00";
    ConcatAssoc(lbl + " - ", fin, ":00");
  }

  lemma ConcatAssoc<T>(a: seq<T>, b: seq<T>, c: seq<T>)
    ensures a + b + c == a + (b + c)
  {
  }

  /** The start string sent for date `fecha` and slot `hora`. */
  function MomentoInicio(fecha: string, hora: string): string {
    fecha + "T" + hora + ":00"
  }

  /** The end string sent for date `fecha` and slot `hora`. */
  function MomentoFin(fecha: string, hora: string): string {
    fecha + "T" + EndHour(hora) + ":00:00"
  }

  /** The number two digit characters denote, tens first. */
  function TwoDigits(tens: char, units: char): (n: nat)
    requires IsDigit(tens) && IsDigit(units)
    ensures n < 100
  {
    DigitValue(tens) * 10 + DigitValue(units)
  }

  /** The seconds since midnight of an `HH:MM:SS` time, or None when it is not one. */
  function ClockSeconds(t: string): (r: Option<int>)
    ensures r.Some? ==> 0 <= r.value < DAY
  {
    if |t| == 8 && t[2] == ':' && t[5] == ':'
      && IsDigit(t[0]) && IsDigit(t[1]) && IsDigit(t[3]) && IsDigit(t[4]) && IsDigit(t[6]) && IsDigit(t[7])
      && TwoDigits(t[0], t[1]) < 24 && TwoDigits(t[3], t[4]) < 60 && TwoDigits(t[6], t[7]) < 60
    then Some(Hours(TwoDigits(t[0], t[1])) + Minutes(TwoDigits(t[3], t[4])) + TwoDigits(t[6], t[7]))
    else None
  }

  /** Two digits read by `TwoDigits` have the value `Value` gives them. */
  lemma TwoDigitsValue(hh: string)
    requires |hh| == 2 && AllDigits(hh)
    ensures TwoDigits(hh[0], hh[1]) == Value(hh)
  {
    var first := hh[..1];
    assert first[..0] == [] && first[0] == hh[0];
    assert Value(first) == DigitValue(hh[0]);
    assert hh[..|hh| - 1] == first;
  }

  lemma ClockOfHour(hh: string, h: nat)
    requires |hh| == 2 && AllDigits(hh) && Value(hh) == h < 24
    ensures ClockSeconds(hh + ":00:00") == Some(Hours(h))
  {
    TwoDigitsValue(hh);
    var t := hh + ":00:00";
    assert t[0] == hh[0] && t[1] == hh[1];
    assert t[2..] == ":00:00";
  }

  /** The time part of a submitted string: what follows the date and the `T`. */
  function TimePart(fecha: string, moment: string): string
    requires |moment| >= |fecha| + 1
  {
    moment[|fecha| + 1..]
  }

  /** A date, a `T` and a two-digit hour on the hour read back as that hour. */
  lemma MomentOfHour(fecha: string, hh: string, h: nat)
    requires |hh| == 2 && AllDigits(hh) && Value(hh) == h < 24
    ensures var m := fecha + "T" + hh + ":00:00";
      && |m| >= |fecha| + 1 && m[..|fecha| + 1] == fecha + "T"
      && ClockSeconds(TimePart(fecha, m)) == Some(Hours(h))
  {
    var m := fecha + "T" + hh + ":00:00";
    assert m == (fecha + "T") + (hh + ":00:00");
    assert TimePart(fecha, m) == hh + ":00:00";
    ClockOfHour(hh, h);
  }

  lemma StartOfSlot(fecha: string, h: nat)
    requires FIRST_HOUR <= h < FIRST_HOUR + SLOT_COUNT
    ensures |MomentoInicio(fecha, SlotLabel(h))| >= |fecha| + 1
    ensures MomentoInicio(fecha, SlotLabel(h))[..|fecha| + 1] == fecha + "T"
    ensures ClockSeconds(TimePart(fecha, MomentoInicio(fecha, SlotLabel(h)))) == Some(Hours(h))
  {
    Pad2OfSmall(h);
    assert MomentoInicio(fecha, SlotLabel(h)) == fecha + "T" + Pad2(h) + ":00:00";
    MomentOfHour(fecha, Pad2(h), h);
  }

  lemma EndOfSlot(fecha: string, h: nat)
    requires FIRST_HOUR <= h < FIRST_HOUR + SLOT_COUNT
    ensures |MomentoFin(fecha, SlotLabel(h))| >= |fecha| + 1
    ensures MomentoFin(fecha, SlotLabel(h))[..|fecha| + 1] == fecha + "T"
    ensures ClockSeconds(TimePart(fecha, MomentoFin(fecha, SlotLabel(h)))) == Some(Hours(h) + HOUR)
  {
    EndHourOfSlot(h);
    EndMoment(fecha, SlotLabel(h), h + 1);
  }

  /** The end string of a selection whose end hour reads as the two-digit hour `h`. */
  lemma EndMoment(fecha: string, hora: string, h: nat)
    requires |EndHour(hora)| == 2 && AllDigits(EndHour(hora)) && Value(EndHour(hora)) == h < 24
    ensures |MomentoFin(fecha, hora)| >= |fecha| + 1
    ensures MomentoFin(fecha, hora)[..|fecha| + 1] == fecha + "T"
    ensures ClockSeconds(TimePart(fecha, MomentoFin(fecha, hora))) == Some(Hours(h))
  {
    MomentOfHour(fecha, EndHour(hora), h);
  }

  /**
   * For every slot, the two submitted strings carry the same date, and their
   * times are whole hours exactly one hour apart, the end no later than 22:00.
   */
  lemma MomentsOneHourApart(fecha: string, hora: string) returns (h: nat)
    requires hora in Horas()
    ensures FIRST_HOUR <= h < FIRST_HOUR + SLOT_COUNT
    ensures hora == SlotLabel(h) && |hora| == 5 && Value(hora[..2]) == h
    ensures |MomentoInicio(fecha, hora)| >= |fecha| + 1 && |MomentoFin(fecha, hora)| >= |fecha| + 1
    ensures MomentoInicio(fecha, hora)[..|fecha| + 1] == fecha + "T" == MomentoFin(fecha, hora)[..|fecha| + 1]
    ensures ClockSeconds(TimePart(fecha, MomentoInicio(fecha, hora))) == Some(Hours(h))
    ensures ClockSeconds(TimePart(fecha, MomentoFin(fecha, hora))) == Some(Hours(h) + HOUR)
  {
    h := SlotOfLabel(hora);
    SlotLabelShape(h);
    StartOfSlot(fecha, h);
    EndOfSlot(fecha, h);
  }

  /**
   * The request moments of a slot carry the date and the hour the label
   * shows, and the hour after it.
   */
  lemma SlotRequestShape(fecha: string, hora: string)
    requires hora in Horas()
    ensures |hora| == 5 && AllDigits(hora[..2])
    ensures |MomentoInicio(fecha, hora)| >= |fecha| + 1 && |MomentoFin(fecha, hora)| >= |fecha| + 1
    ensures MomentoInicio(fecha, hora)[..|fecha| + 1] == fecha + "T" == MomentoFin(fecha, hora)[..|fecha| + 1]
    ensures ClockSeconds(TimePart(fecha, MomentoInicio(fecha, hora))) == Some(Hours(Value(hora[..2])))
    ensures ClockSeconds(TimePart(fecha, MomentoFin(fecha, hora))) == Some(Hours(Value(hora[..2])) + HOUR)
  {
    var h := MomentsOneHourApart(fecha, hora);
  }

  /** Hour `h` of day `day`, counted in hours from the epoch. */
  lemma HoursOfDay(day: int, h: int)
    ensures Days(day) + Hours(h) == Hours(day * 24 + h) + 0
  {
  }

  /**
   * Read as a day's midnight plus the clock time, a submitted slot passes the
   * server's duration and on-the-hour checks.
   */
  lemma SubmittedSlotHasServerShape(day: int, fecha: string, hora: string)
    requires hora in Horas()
    ensures |MomentoInicio(fecha, hora)| >= |fecha| + 1 && |MomentoFin(fecha, hora)| >= |fecha| + 1
    ensures ClockSeconds(TimePart(fecha, MomentoInicio(fecha, hora))).Some?
    ensures ClockSeconds(TimePart(fecha, MomentoFin(fecha, hora))).Some?
    ensures var ti := Days(day) + ClockSeconds(TimePart(fecha, MomentoInicio(fecha, hora))).value;
      var tf := Days(day) + ClockSeconds(TimePart(fecha, MomentoFin(fecha, hora))).value;
      tf - ti == HOUR && OnTheHour(ti) && OnTheHour(tf)
  {
    var h := MomentsOneHourApart(fecha, hora);
    HoursOfDay(day, h);
    HoursOfDay(day, h + 1);
    OnTheHourIgnoresSeconds(day * 24 + h, 0);
    OnTheHourIgnoresSeconds(day * 24 + h + 1, 0);
  }
}

=== FILE: store_properties.dfy ===
/**
 * Properties of the store that the create, modify and delete transitions
 * keep, and what follows from them for the booking rules.
 */
module StoreProperties {
  import opened Wrappers
  import opened Models
  import opened Views

  /** A stored slot lasts one hour and starts and ends with minute zero. */
  predicate RowShape(r: Reserva) {
    r.fin - r.inicio == HOUR && OnTheHour(r.inicio) && OnTheHour(r.fin)
  }

  /** Rows in ascending key order, keys below the next key, every slot well shaped. */
  predicate Valid(s: Store) {
    && ByIdAscending(s.reservas)
    && forall i :: 0 <= i < |s.reservas| ==> s.reservas[i].id < s.nextId && RowShape(s.reservas[i])
  }

  /** `Valid`, and every user's deposit is the step times the number of reservations the user owns. */
  ghost predicate Consistent(s: Store) {
    && Valid(s)
    && forall v :: FianzaOf(s, v) == FIANZA_STEP * CountOf(s.reservas, v)
  }

  lemma EmptyStoreConsistent()
    ensures Consistent(EmptyStore)
  {
  }

  lemma CountOfAppend(rs: seq<Reserva>, x: Reserva, v: UserId)
    ensures CountOf(rs + [x], v) == CountOf(rs, v) + (if x.user == v then 1 else 0)
  {
    FilterAppend(rs, [x], (r: Reserva) => r.user == v);
  }

  /** Every row of an ascending table other than row `i` has a key different from row `i`'s. */
  lemma OthersKeepTheirKeys(rs: seq<Reserva>, i: nat)
    requires ByIdAscending(rs)
    requires i < |rs|
    ensures forall r :: r in rs[..i] ==> r.id != rs[i].id
    ensures forall r :: r in rs[i + 1..] ==> r.id != rs[i].id
  {
    forall r | r in rs[..i] ensures r.id != rs[i].id {
      var k :| 0 <= k < i && rs[..i][k] == r;
      assert rs[k] == r;
    }
    forall r | r in rs[i + 1..] ensures r.id != rs[i].id {
      var k :| 0 <= k < |rs| - i - 1 && rs[i + 1..][k] == r;
      assert rs[i + 1 + k] == r;
    }
  }

  /** Deleting a row by its key removes exactly that row. */
  lemma WithoutIdRemovesOne(rs: seq<Reserva>, i: nat)
    requires ByIdAscending(rs)
    requires i < |rs|
    ensures WithoutId(rs, rs[i].id) == rs[..i] + rs[i + 1..]
  {
    OthersKeepTheirKeys(rs, i);
    assert rs == rs[..i] + [rs[i]] + rs[i + 1..];
    RemoveKey(rs[..i], rs[i], rs[i + 1..]);
  }

  /** Deleting by a key that only the middle row carries leaves the rows around it. */
  lemma RemoveKey(a: seq<Reserva>, x: Reserva, b: seq<Reserva>)
    requires forall r :: r in a ==> r.id != x.id
    requires forall r :: r in b ==> r.id != x.id
    ensures WithoutId(a + [x] + b, x.id) == a + b
  {
    var keep := (r: Reserva) => r.id != x.id;
    calc {
      WithoutId(a + [x] + b, x.id);
      Filter(a + [x] + b, keep);
      { FilterAppend(a + [x], b, keep); FilterAppend(a, [x], keep); }
      Filter(a, keep) + Filter([x], keep) + Filter(b, keep);
      { FilterKeepsAll(a, keep); FilterKeepsAll(b, keep); assert Filter([x], keep) == []; }
      a + [] + b;
      a + b;
    }
  }

  /** Removing row `i` removes one from its owner's count and nothing from any other. */
  lemma CountWithoutRow(rs: seq<Reserva>, i: nat, v: UserId)
    requires i < |rs|
    ensures CountOf(rs[..i] + rs[i + 1..], v) == CountOf(rs, v) - (if rs[i].user == v then 1 else 0)
  {
    var a, x, b := rs[..i], rs[i], rs[i + 1..];
    assert rs == a + [x] + b;
    var mine := (r: Reserva) => r.user == v;
    FilterAppend(a + [x], b, mine);
    FilterAppend(a, [x], mine);
    FilterAppend(a, b, mine);
  }

  /** A successful booking keeps the store valid and the deposits equal to twice the counts. */
  lemma CreatePreservesConsistent(s: Store, u: UserId, req: CreateRequest, now: int)
    requires Consistent(s)
    ensures Consistent(CrearReserva(s, u, req, now).store)
  {
    var t := CrearReserva(s, u, req, now);
    if t.outcome.Created? {
      var r := t.outcome.reserva;
      assert ValidatePost(s, u, req.inicio, req.fin, Evaluate(req.espacio), now) == None;
      forall v ensures FianzaOf(t.store, v) == FIANZA_STEP * CountOf(t.store.reservas, v) {
        CountOfAppend(s.reservas, r, v);
      }
    }
  }

  /** A successful modification keeps every slot well shaped, the key order, and every count. */
  lemma ModifyPreservesConsistent(s: Store, u: UserId, id: nat, req: ModifyRequest, now: int)
    requires Consistent(s)
    ensures Consistent(ModificarReserva(s, u, id, req, now).store)
  {
    var t := ModificarReserva(s, u, id, req, now);
    if t.outcome.Modified? {
      var i := IndexOf(s.reservas, id, u).value;
      var e := ApplyEdit(s.reservas[i], req);
      assert ValidatePut(s, u, e, req, now) == None;
      var r := t.outcome.reserva;
      assert RowShape(s.reservas[i]);
      assert RowShape(r);
      forall v ensures CountOf(t.store.reservas, v) == CountOf(s.reservas, v) {
        FilterUpdateLength(s.reservas, i, r, (x: Reserva) => x.user == v);
      }
    }
  }

  /** A successful cancellation removes one reservation and one refund's worth of deposit. */
  lemma DeletePreservesConsistent(s: Store, u: UserId, id: nat)
    requires Consistent(s)
    ensures Consistent(EliminarReserva(s, u, id).store)
  {
    var t := EliminarReserva(s, u, id);
    match IndexOf(s.reservas, id, u)
    case None =>
    case Some(i) =>
      WithoutIdRemovesOne(s.reservas, i);
      forall v ensures CountOf(t.store.reservas, v) == CountOf(s.reservas, v) - (if u == v then 1 else 0) {
        CountWithoutRow(s.reservas, i, v);
      }
      FilterByIdAscending(s.reservas, (r: Reserva) => r.id != id);
  }

  /** Cancelling removes exactly the requested row and keeps the order of the rest. */
  lemma DeleteRemovesExactlyOne(s: Store, u: UserId, id: nat)
    requires Valid(s)
    requires IndexOf(s.reservas, id, u).Some?
    ensures var i := IndexOf(s.reservas, id, u).value;
      EliminarReserva(s, u, id).store.reservas == s.reservas[..i] + s.reservas[i + 1..]
  {
    WithoutIdRemovesOne(s.reservas, IndexOf(s.reservas, id, u).value);
  }

  /**
   * The second conflict check, which looks for a stored row that both starts
   * and ends at the requested start, never fires on a valid store: no stored
   * slot ends where it starts.
   */
  lemma SecondConflictCheckNeverFires(s: Store, espacio: Option<Espacio>, inicio: int)
    requires Valid(s)
    ensures !SlotTaken(s, espacio, inicio, inicio)
  {
    if espacio.Some? {
      forall i | 0 <= i < |s.reservas|
        ensures !(s.reservas[i].espacio == espacio.value && s.reservas[i].inicio == inicio && s.reservas[i].fin == inicio)
      {
        assert RowShape(s.reservas[i]);
      }
    }
  }

  /**
   * In every store the views can reach, the deposit check shuts a user out
   * after five bookings, so the create cap of ten is never what refuses.
   */
  lemma CreateCapNeverReached(s: Store, u: UserId, inicio: int, fin: int, espacio: Option<Espacio>, now: int)
    requires Consistent(s)
    ensures ValidatePost(s, u, inicio, fin, espacio, now) != Some(DemasiadasReservas)
    ensures ValidatePost(s, u, inicio, fin, espacio, now) == None ==> CountOf(s.reservas, u) < 5
    ensures CountOf(s.reservas, u) >= 5 ==> ValidatePost(s, u, inicio, fin, espacio, now) == Some(FianzaAlta)
  {
    assert FianzaOf(s, u) == FIANZA_STEP * CountOf(s.reservas, u);
  }

  /** A user's listing is in ascending key order. */
  lemma ListingInIdOrder(s: Store, u: UserId)
    requires Valid(s)
    ensures ByIdAscending(ReservasDe(s, u))
  {
    FilterByIdAscending(s.reservas, (r: Reserva) => r.user == u);
  }

  /** A user who owns three reservations cannot modify any of them. */
  lemma ModifyBlockedAtCap(s: Store, u: UserId, id: nat, req: ModifyRequest, now: int)
    requires CountOf(s.reservas, u) >= MODIFY_CAP
    ensures ModificarReserva(s, u, id, req, now).store == s
    ensures !ModificarReserva(s, u, id, req, now).outcome.Modified?
  {
  }

  /**
   * A modification that changes nothing collides with the reservation's own
   * stored row and is refused as a conflict.
   */
  lemma EmptyModifyConflictsWithItself(s: Store, u: UserId, id: nat, now: int)
    requires IndexOf(s.reservas, id, u).Some?
    requires CountOf(s.reservas, u) < MODIFY_CAP
    ensures ModificarReserva(s, u, id, ModifyRequest(None, None, None), now) == Transition(s, Invalid(YaExiste))
  {
    var i := IndexOf(s.reservas, id, u).value;
    var e := ApplyEdit(s.reservas[i], ModifyRequest(None, None, None));
    assert SlotTaken(s, e.espacio, e.inicio, e.fin) by {
      assert s.reservas[i].espacio == e.espacio.value;
    }
  }

  /**
   * Conflicts are exact matches only: from the empty store, a Padel booking
   * at 100:00:00 and a second one thirty seconds later are both accepted,
   * and the two slots overlap.
   */
  lemma DoubleBookingWithinTheFirstMinute()
    ensures
      var t1 := CrearReserva(EmptyStore, 1, CreateRequest("Padel", 360000, 363600), 0);
      var t2 := CrearReserva(t1.store, 2, CreateRequest("Padel", 360030, 363630), 0);
      && t1.outcome.Created?
      && t2.outcome.Created?
      && t2.store.reservas[0].espacio == t2.store.reservas[1].espacio
      && t2.store.reservas[0].inicio < t2.store.reservas[1].inicio < t2.store.reservas[0].fin
  {
    var t1 := CrearReserva(EmptyStore, 1, CreateRequest("Padel", 360000, 363600), 0);
    assert OnTheHour(360000) && OnTheHour(363600);
    assert ValidatePost(EmptyStore, 1, 360000, 363600, Some(Padel), 0) == None;
    assert OnTheHour(360030) && OnTheHour(363630);
    assert CountOf(t1.store.reservas, 2) == 0;
    assert ValidatePost(t1.store, 2, 360030, 363630, Some(Padel), 0) == None;
  }

  /** Three rows of one owner count three for that owner. */
  lemma ThreeRowsOwned(a: Reserva, b: Reserva, c: Reserva, u: UserId)
    requires a.user == u && b.user == u && c.user == u
    ensures CountOf([a, b, c], u) == 3
  {
    CountOfAppend([a, b], c, u);
    CountOfAppend([a], b, u);
    CountOfAppend([], a, u);
    assert [a, b] + [c] == [a, b, c];
    assert [a] + [b] == [a, b];
  }

  /** Three one-hour Padel bookings of user 7, paid for with a deposit of 6. */
  function ThreeBooked(): Store {
    Store([Reserva(1, Padel, 360000, 363600, 7, 0), Reserva(2, Padel, 367200, 370800, 7, 0),
           Reserva(3, Padel, 374400, 378000, 7, 0)], map[7 := 6], 4)
  }

  /** The fourth booking of user 7 passes every check made before a booking is created. */
  lemma FourthPassesValidation()
    ensures CountOf(ThreeBooked().reservas, 7) == 3
    ensures ValidatePost(ThreeBooked(), 7, 381600, 385200, Some(Padel), 0) == None
  {
    var s := ThreeBooked();
    var rs := s.reservas;
    ThreeRowsOwned(rs[0], rs[1], rs[2], 7);
    assert [rs[0], rs[1], rs[2]] == rs;
    assert PostAdmissible(s, 7, 381600, 385200, Some(Padel), 0) by {
      assert OnTheHour(381600) && OnTheHour(385200);
      forall i | 0 <= i < |rs|
        ensures rs[i].inicio < 381600
      {
      }
    }
    ValidatePostAccepts(s, 7, 381600, 385200, Some(Padel), 0);
  }

  /**
   * A user who already owns three reservations is allowed a fourth, although
   * the cap's error text speaks of three.
   */
  lemma FourthReservationAccepted()
    ensures CountOf(ThreeBooked().reservas, 7) == 3
    ensures CrearReserva(ThreeBooked(), 7, CreateRequest("Padel", 381600, 385200), 0).outcome.Created?
  {
    FourthPassesValidation();
    EvaluateInvertsValue("Padel", Padel);
  }

  /** One Padel booking of user 7 at 100:00, paid for with a deposit of 2. */
  function OneBooked(): Store {
    Store([Reserva(1, Padel, 360000, 363600, 7, 0)], map[7 := 2], 2)
  }

  /**
   * A modification can succeed: moving user 7's only booking one hour later
   * passes every check and saves the new times in place.
   */
  lemma MoveToFreeHourAccepted()
    ensures
      var t := ModificarReserva(OneBooked(), 7, 1, ModifyRequest(Some(367200), Some(370800), None), 0);
      && t.outcome == Modified(Reserva(1, Padel, 367200, 370800, 7, 0))
      && t.store == OneBooked().(reservas := [Reserva(1, Padel, 367200, 370800, 7, 0)])
  {
    var s := OneBooked();
    var req := ModifyRequest(Some(367200), Some(370800), None);
    assert IndexOf(s.reservas, 1, 7) == Some(0);
    var e := ApplyEdit(s.reservas[0], req);
    assert CountOf(s.reservas, 7) == 1 by {
      CountOfAppend([], s.reservas[0], 7);
      assert [] + [s.reservas[0]] == s.reservas;
    }
    assert PutAdmissible(s, 7, e, req, 0) by {
      assert OnTheHour(367200) && OnTheHour(370800);
      assert s.reservas[0].inicio != 367200;
    }
    ValidatePutAccepts(s, 7, e, req, 0);
  }
}

=== FILE: views.dfy ===
/**
 * The server-side booking rules: a store of reservations plus a per-user
 * deposit ("fianza") counter, the two validation chains, and the create,
 * modify and delete views as transitions of that store. The current time is
 * the parameter `now`; times are whole seconds.
 */
module Views {
  import opened Wrappers
  import opened Decimal
  import opened Models

  /** The deposit a user has before any booking (the deposit record's default is assumed to be zero). */
  const FIANZA_DEFAULT: int := 0
  /** A deposit at or above this amount blocks new bookings. */
  const FIANZA_LIMIT: int := 10
  /** The deposit charged per booking and refunded per cancellation. */
  const FIANZA_STEP: int := 2
  /** Create refuses once the user owns this many reservations (the error text says 3). */
  const CREATE_CAP: nat := 10
  /** Modify refuses once the user owns this many reservations, the edited one included. */
  const MODIFY_CAP: nat := 3

  /** The reservation table, the deposit table, and the next primary key the database hands out. */
  datatype Store = Store(reservas: seq<Reserva>, fianzas: map<UserId, int>, nextId: nat)

  const EmptyStore: Store := Store([], map[], 1)

  function FianzaOf(s: Store, u: UserId): int {
    if u in s.fianzas then s.fianzas[u] else FIANZA_DEFAULT
  }

  /** `Fianza.objects.get_or_create(user_id=u)`: the row exists afterwards, no amount changes. */
  function EnsureFianza(s: Store, u: UserId): (s': Store)
    ensures s'.reservas == s.reservas && s'.nextId == s.nextId
    ensures u in s'.fianzas
    ensures forall v :: FianzaOf(s', v) == FianzaOf(s, v)
  {
    s.(fianzas := s.fianzas[u := FianzaOf(s, u)])
  }

  /** The facility named by a request string; any other string names none. */
  function Evaluate(pista: string): Option<Espacio> {
    if pista == "Baloncesto" then Some(Baloncesto)
    else if pista == "Fútbol" then Some(Futbol)
    else if pista == "Padel" then Some(Padel)
    else if pista == "Piscina1" then Some(Piscina1)
    else if pista == "Piscina2" then Some(Piscina2)
    else None
  }

  /** `Evaluate` is the inverse of the stored value of a facility, and names nothing else. */
  lemma EvaluateInvertsValue(pista: string, e: Espacio)
    ensures Evaluate(ValueOf(e)) == Some(e)
    ensures Evaluate(pista) == Some(e) <==> pista == ValueOf(e)
    ensures Evaluate(pista).None? <==> (forall m: Espacio :: pista != ValueOf(m))
  {
    if Evaluate(pista).None? {
      forall m: Espacio ensures pista != ValueOf(m) {
        match m
        case Baloncesto =>
        case Futbol =>
        case Padel =>
        case Piscina1 =>
        case Piscina2 =>
      }
    } else {
      assert pista == ValueOf(Evaluate(pista).value);
    }
  }

  // ---------------------------------------------------------------------------
  // Queries over the reservation table

  /** The rows of `xs` that satisfy `p`, in order. */
  function Filter(xs: seq<Reserva>, p: Reserva -> bool): (r: seq<Reserva>)
    ensures forall x :: x in r <==> x in xs && p(x)
    ensures |r| <= |xs|
  {
    if xs == [] then [] else (if p(xs[0]) then [xs[0]] else []) + Filter(xs[1..], p)
  }

  lemma {:induction false} FilterAppend(a: seq<Reserva>, b: seq<Reserva>, p: Reserva -> bool)
    ensures Filter(a + b, p) == Filter(a, p) + Filter(b, p)
    decreases |a|
  {
    if a != [] {
      assert (a + b)[1..] == a[1..] + b;
      FilterAppend(a[1..], b, p);
    } else {
      assert a + b == b;
    }
  }

  lemma {:induction false} FilterKeepsAll(xs: seq<Reserva>, p: Reserva -> bool)
    requires forall x :: x in xs ==> p(x)
    ensures Filter(xs, p) == xs
    decreases |xs|
  {
    if xs != [] {
      FilterKeepsAll(xs[1..], p);
    }
  }

  /** Replacing one element by another that `p` judges alike keeps the filtered length. */
  lemma FilterUpdateLength(xs: seq<Reserva>, i: nat, y: Reserva, p: Reserva -> bool)
    requires i < |xs|
    requires p(y) == p(xs[i])
    ensures |Filter(xs[i := y], p)| == |Filter(xs, p)|
  {
    var a, b := xs[..i], xs[i + 1..];
    assert xs == a + [xs[i]] + b;
    assert xs[i := y] == a + [y] + b;
    FilterAppend(a + [xs[i]], b, p);
    FilterAppend(a, [xs[i]], p);
    FilterAppend(a + [y], b, p);
    FilterAppend(a, [y], p);
  }

  /** Filtering by a stronger condition after a weaker one is filtering by the stronger one. */
  lemma {:induction false} FilterNarrow(xs: seq<Reserva>, p: Reserva -> bool, q: Reserva -> bool)
    requires forall x :: q(x) ==> p(x)
    ensures Filter(Filter(xs, p), q) == Filter(xs, q)
    decreases |xs|
  {
    if xs != [] {
      FilterNarrow(xs[1..], p, q);
      FilterAppend(if p(xs[0]) then [xs[0]] else [], Filter(xs[1..], p), q);
    }
  }

  /** Filtering by two conditions no row meets together leaves nothing. */
  lemma {:induction false} FilterDisjoint(xs: seq<Reserva>, p: Reserva -> bool, q: Reserva -> bool)
    requires forall x :: !(p(x) && q(x))
    ensures Filter(Filter(xs, p), q) == []
    decreases |xs|
  {
    if xs != [] {
      FilterDisjoint(xs[1..], p, q);
      FilterAppend(if p(xs[0]) then [xs[0]] else [], Filter(xs[1..], p), q);
    }
  }

  /** A subsequence of rows ordered by primary key is ordered by primary key. */
  lemma {:induction false} FilterByIdAscending(rs: seq<Reserva>, p: Reserva -> bool)
    requires ByIdAscending(rs)
    ensures ByIdAscending(Filter(rs, p))
    decreases |rs|
  {
    if rs != [] {
      FilterByIdAscending(rs[1..], p);
      var tail := Filter(rs[1..], p);
      forall j | 0 <= j < |tail| ensures rs[0].id < tail[j].id {
        assert tail[j] in rs[1..];
      }
    }
  }

  /** `Reserva.objects.filter(user_id=u)`. */
  function OwnedBy(rs: seq<Reserva>, u: UserId): seq<Reserva> {
    Filter(rs, (r: Reserva) => r.user == u)
  }

  function CountOf(rs: seq<Reserva>, u: UserId): nat {
    |OwnedBy(rs, u)|
  }

  /** The table once the row with primary key `id` is deleted. */
  function WithoutId(rs: seq<Reserva>, id: nat): seq<Reserva> {
    Filter(rs, (r: Reserva) => r.id != id)
  }

  /** The table once every row of user `u` is deleted. */
  function NotOwnedBy(rs: seq<Reserva>, u: UserId): seq<Reserva> {
    Filter(rs, (r: Reserva) => r.user != u)
  }

  /** Some stored reservation has exactly this facility, start and end. */
  predicate SlotTaken(s: Store, espacio: Option<Espacio>, inicio: int, fin: int) {
    espacio.Some? &&
    exists i :: 0 <= i < |s.reservas| && s.reservas[i].espacio == espacio.value
      && s.reservas[i].inicio == inicio && s.reservas[i].fin == fin
  }

  /** `Reserva.objects.get(id=id, user_id=u)`: the index of the user's row with that key. */
  function IndexOf(rs: seq<Reserva>, id: nat, u: UserId): (r: Option<nat>)
    ensures r.Some? ==> r.value < |rs| && rs[r.value].id == id && rs[r.value].user == u
    ensures r.None? ==> forall i :: 0 <= i < |rs| ==> !(rs[i].id == id && rs[i].user == u)
  {
    if rs == [] then None
    else if rs[0].id == id && rs[0].user == u then Some(0)
    else match IndexOf(rs[1..], id, u)
      case None => None
      case Some(k) => Some(k + 1)
  }

  // ---------------------------------------------------------------------------
  // Validation

  datatype ValidationError =
    | FianzaAlta
    | DuracionInvalida
    | DemasiadasReservas
    | YaExiste
    | EnElPasado
    | NoEnPunto
    | InicioNoEnPunto
    | FinNoEnPunto

  /** The error text returned to the client. */
  function Message(e: ValidationError): string {
    match e
    case FianzaAlta => "Tu fianza es igual o mayor a 10 euros"
    case DuracionInvalida => "La reserva debe durar una hora"
    case DemasiadasReservas => "No puedes tener más de 3 reservas"
    case YaExiste => "Ya existe una reserva en ese momento"
    case EnElPasado => "La reserva tiene que ser en el futuro"
    case NoEnPunto => "La reserva tiene que empezar y terminar en punto"
    case InicioNoEnPunto => "La reserva tiene que empezar en punto"
    case FinNoEnPunto => "La reserva tiene que terminar en punto"
  }

  /**
   * Each error has its own text, and the cap's text names the modify cap of
   * three, although create refuses only at ten.
   */
  lemma MessagesName(e1: ValidationError, e2: ValidationError)
    ensures Message(e1) == Message(e2) ==> e1 == e2
    ensures Message(DemasiadasReservas) == "No puedes tener más de " + Show(MODIFY_CAP) + " reservas"
    ensures Show(MODIFY_CAP) != Show(CREATE_CAP)
  {
    assert Show(MODIFY_CAP) == "3";
    assert |Show(CREATE_CAP)| == 2;
  }

  /** Every condition under which a new booking is accepted, as one conjunction. */
  predicate PostAdmissible(s: Store, u: UserId, inicio: int, fin: int, espacio: Option<Espacio>, now: int) {
    && FianzaOf(s, u) < FIANZA_LIMIT
    && fin - inicio == HOUR
    && CountOf(s.reservas, u) < CREATE_CAP
    && !SlotTaken(s, espacio, inicio, fin)
    && inicio >= now && fin >= now
    && !SlotTaken(s, espacio, inicio, inicio)
    && OnTheHour(inicio) && OnTheHour(fin)
  }

  /** The checks made before a booking is created, in order; None when all pass. */
  function ValidatePost(s: Store, u: UserId, inicio: int, fin: int, espacio: Option<Espacio>, now: int): (r: Option<ValidationError>)
    ensures FianzaOf(s, u) >= FIANZA_LIMIT ==> r == Some(FianzaAlta)
    ensures r == None ==> fin - inicio == HOUR && inicio >= now && fin >= now && OnTheHour(inicio) && OnTheHour(fin)
    ensures r == None ==> CountOf(s.reservas, u) < CREATE_CAP && !SlotTaken(s, espacio, inicio, fin)
    ensures r.Some? ==> r.value !in {InicioNoEnPunto, FinNoEnPunto}
  {
    if FianzaOf(s, u) >= FIANZA_LIMIT then Some(FianzaAlta)
    else if fin - inicio != HOUR then Some(DuracionInvalida)
    else if CountOf(s.reservas, u) >= CREATE_CAP then Some(DemasiadasReservas)
    else if SlotTaken(s, espacio, inicio, fin) then Some(YaExiste)
    else if inicio < now || fin < now then Some(EnElPasado)
    else if SlotTaken(s, espacio, inicio, inicio) then Some(YaExiste)
    else if !OnTheHour(inicio) || !OnTheHour(fin) then Some(NoEnPunto)
    else None
  }

  /** A booking passes validation exactly when every condition holds. */
  lemma ValidatePostAccepts(s: Store, u: UserId, inicio: int, fin: int, espacio: Option<Espacio>, now: int)
    ensures ValidatePost(s, u, inicio, fin, espacio, now) == None <==> PostAdmissible(s, u, inicio, fin, espacio, now)
  {
  }

  /**
   * Checks run in order: the deposit check before all others, the duration
   * check before the cap, the cap before the conflict check, the conflict
   * check before the past-time check.
   */
  lemma ValidatePostOrder(s: Store, u: UserId, inicio: int, fin: int, espacio: Option<Espacio>, now: int)
    ensures FianzaOf(s, u) < FIANZA_LIMIT && fin - inicio != HOUR
      ==> ValidatePost(s, u, inicio, fin, espacio, now) == Some(DuracionInvalida)
    ensures FianzaOf(s, u) < FIANZA_LIMIT && fin - inicio == HOUR && CountOf(s.reservas, u) >= CREATE_CAP
      ==> ValidatePost(s, u, inicio, fin, espacio, now) == Some(DemasiadasReservas)
    ensures FianzaOf(s, u) < FIANZA_LIMIT && fin - inicio == HOUR && CountOf(s.reservas, u) < CREATE_CAP
        && SlotTaken(s, espacio, inicio, fin)
      ==> ValidatePost(s, u, inicio, fin, espacio, now) == Some(YaExiste)
    ensures FianzaOf(s, u) < FIANZA_LIMIT && fin - inicio == HOUR && CountOf(s.reservas, u) < CREATE_CAP
        && !SlotTaken(s, espacio, inicio, fin) && (inicio < now || fin < now)
      ==> ValidatePost(s, u, inicio, fin, espacio, now) == Some(EnElPasado)
    ensures FianzaOf(s, u) < FIANZA_LIMIT && fin - inicio == HOUR && CountOf(s.reservas, u) < CREATE_CAP
        && !SlotTaken(s, espacio, inicio, fin) && inicio >= now && fin >= now
        && SlotTaken(s, espacio, inicio, inicio)
      ==> ValidatePost(s, u, inicio, fin, espacio, now) == Some(YaExiste)
    ensures FianzaOf(s, u) < FIANZA_LIMIT && fin - inicio == HOUR && CountOf(s.reservas, u) < CREATE_CAP
        && !SlotTaken(s, espacio, inicio, fin) && inicio >= now && fin >= now
        && !SlotTaken(s, espacio, inicio, inicio) && !(OnTheHour(inicio) && OnTheHour(fin))
      ==> ValidatePost(s, u, inicio, fin, espacio, now) == Some(NoEnPunto)
  {
  }

  /**
   * The cap counts every reservation the user owns, past ones included: a
   * user whose reservations are all over is still refused at the cap. No
   * store the views reach has ten rows of one user with a deposit below ten
   * (see `StoreProperties.CreateCapNeverReached`), so this describes the check
   * itself; the same counting bites at the modify cap of three, which
   * reachable stores do meet (`ValidatePutOrder`).
   */
  lemma CapCountsPastReservations(s: Store, u: UserId, inicio: int, fin: int, espacio: Option<Espacio>, now: int)
    requires forall r :: r in OwnedBy(s.reservas, u) ==> r.fin < now
    requires CountOf(s.reservas, u) >= CREATE_CAP
    requires FianzaOf(s, u) < FIANZA_LIMIT && fin - inicio == HOUR
    ensures ValidatePost(s, u, inicio, fin, espacio, now) == Some(DemasiadasReservas)
  {
  }

  /** The fields of a reservation after an edit, before it is saved; the facility may name nothing. */
  datatype Edit = Edit(espacio: Option<Espacio>, inicio: int, fin: int)

  /**
   * The JSON body of a modification. An absent or empty field is None, as the
   * view checks each field for truthiness.
   */
  datatype ModifyRequest = ModifyRequest(inicio: Option<int>, fin: Option<int>, espacio: Option<string>)

  predicate Given(field: Option<string>) {
    field.Some? && field.value != ""
  }

  /** The supplied fields applied to the stored row. */
  function ApplyEdit(r: Reserva, req: ModifyRequest): (e: Edit)
    ensures e.inicio == req.inicio.GetOr(r.inicio) && e.fin == req.fin.GetOr(r.fin)
    ensures !Given(req.espacio) ==> e.espacio == Some(r.espacio)
    ensures Given(req.espacio) ==> e.espacio == Evaluate(req.espacio.value)
  {
    Edit(
      if Given(req.espacio) then Evaluate(req.espacio.value) else Some(r.espacio),
      if req.inicio.Some? then req.inicio.value else r.inicio,
      if req.fin.Some? then req.fin.value else r.fin)
  }

  /**
   * The checks made before a modification is saved, in order; `e` is the row
   * with the request already applied. No deposit check.
   */
  function ValidatePut(s: Store, u: UserId, e: Edit, req: ModifyRequest, now: int): (r: Option<ValidationError>)
    requires req.inicio.Some? ==> e.inicio == req.inicio.value
    requires req.fin.Some? ==> e.fin == req.fin.value
    ensures r == None && req.inicio.Some? ==> e.fin - e.inicio == HOUR && e.inicio >= now && OnTheHour(e.inicio)
    ensures r == None && req.fin.Some? ==> e.fin - e.inicio == HOUR && e.fin >= now && OnTheHour(e.fin)
    ensures r == None ==> CountOf(s.reservas, u) < MODIFY_CAP && !SlotTaken(s, e.espacio, e.inicio, e.fin)
    ensures r.Some? ==> r.value !in {FianzaAlta, NoEnPunto}
  {
    if req.inicio.Some? && e.fin - e.inicio != HOUR then Some(DuracionInvalida)
    else if req.inicio.Some? && e.inicio < now then Some(EnElPasado)
    else if req.inicio.Some? && !OnTheHour(e.inicio) then Some(InicioNoEnPunto)
    else if req.fin.Some? && e.fin - e.inicio != HOUR then Some(DuracionInvalida)
    else if req.fin.Some? && e.fin < now then Some(EnElPasado)
    else if req.fin.Some? && !OnTheHour(e.fin) then Some(FinNoEnPunto)
    else if CountOf(s.reservas, u) >= MODIFY_CAP then Some(DemasiadasReservas)
    else if SlotTaken(s, e.espacio, e.inicio, e.fin) then Some(YaExiste)
    else None
  }

  /** The checks on a supplied start: a one-hour slot, not in the past, on the hour. */
  predicate StartChecksPass(e: Edit, req: ModifyRequest, now: int) {
    req.inicio.Some? ==> e.fin - e.inicio == HOUR && e.inicio >= now && OnTheHour(e.inicio)
  }

  /** The checks on a supplied end: a one-hour slot, not in the past, on the hour. */
  predicate EndChecksPass(e: Edit, req: ModifyRequest, now: int) {
    req.fin.Some? ==> e.fin - e.inicio == HOUR && e.fin >= now && OnTheHour(e.fin)
  }

  /** Every condition under which a modification is accepted, as one conjunction. */
  predicate PutAdmissible(s: Store, u: UserId, e: Edit, req: ModifyRequest, now: int) {
    && StartChecksPass(e, req, now)
    && EndChecksPass(e, req, now)
    && CountOf(s.reservas, u) < MODIFY_CAP
    && !SlotTaken(s, e.espacio, e.inicio, e.fin)
  }

  /** A modification passes validation exactly when every condition holds. */
  lemma ValidatePutAccepts(s: Store, u: UserId, e: Edit, req: ModifyRequest, now: int)
    requires req.inicio.Some? ==> e.inicio == req.inicio.value
    requires req.fin.Some? ==> e.fin == req.fin.value
    ensures ValidatePut(s, u, e, req, now) == None <==> PutAdmissible(s, u, e, req, now)
  {
  }

  /**
   * Checks run in order: the start's duration, past-time and minute checks,
   * then the same three for the end, then the cap of three, then the
   * exact-match conflict.
   */
  lemma ValidatePutOrder(s: Store, u: UserId, e: Edit, req: ModifyRequest, now: int)
    requires req.inicio.Some? ==> e.inicio == req.inicio.value
    requires req.fin.Some? ==> e.fin == req.fin.value
    ensures req.inicio.Some? && e.fin - e.inicio != HOUR
      ==> ValidatePut(s, u, e, req, now) == Some(DuracionInvalida)
    ensures req.inicio.Some? && e.fin - e.inicio == HOUR && e.inicio < now
      ==> ValidatePut(s, u, e, req, now) == Some(EnElPasado)
    ensures req.inicio.Some? && e.fin - e.inicio == HOUR && e.inicio >= now && !OnTheHour(e.inicio)
      ==> ValidatePut(s, u, e, req, now) == Some(InicioNoEnPunto)
    ensures StartChecksPass(e, req, now) && req.fin.Some? && e.fin - e.inicio != HOUR
      ==> ValidatePut(s, u, e, req, now) == Some(DuracionInvalida)
    ensures StartChecksPass(e, req, now) && req.fin.Some? && e.fin - e.inicio == HOUR && e.fin < now
      ==> ValidatePut(s, u, e, req, now) == Some(EnElPasado)
    ensures StartChecksPass(e, req, now) && req.fin.Some? && e.fin - e.inicio == HOUR && e.fin >= now
        && !OnTheHour(e.fin)
      ==> ValidatePut(s, u, e, req, now) == Some(FinNoEnPunto)
    ensures StartChecksPass(e, req, now) && EndChecksPass(e, req, now) && CountOf(s.reservas, u) >= MODIFY_CAP
      ==> ValidatePut(s, u, e, req, now) == Some(DemasiadasReservas)
    ensures StartChecksPass(e, req, now) && EndChecksPass(e, req, now) && CountOf(s.reservas, u) < MODIFY_CAP
        && SlotTaken(s, e.espacio, e.inicio, e.fin)
      ==> ValidatePut(s, u, e, req, now) == Some(YaExiste)
  {
  }

  /** A modification is validated without looking at any deposit. */
  lemma ValidatePutIgnoresFianza(s: Store, m: map<UserId, int>, u: UserId, e: Edit, req: ModifyRequest, now: int)
    requires req.inicio.Some? ==> e.inicio == req.inicio.value
    requires req.fin.Some? ==> e.fin == req.fin.value
    ensures ValidatePut(s.(fianzas := m), u, e, req, now) == ValidatePut(s, u, e, req, now)
  {
    assert forall v :: CountOf(s.(fianzas := m).reservas, v) == CountOf(s.reservas, v);
  }

  // ---------------------------------------------------------------------------
  // Transitions

  /** What a view answers, short of HTTP: success, a validation error, or an uncaught exception. */
  datatype Fault = NoSuchReserva | NullEspacio

  datatype Outcome =
    | Created(reserva: Reserva)
    | Modified(reserva: Reserva)
    | Deleted
    | Invalid(error: ValidationError)
    | Crash(fault: Fault)

  datatype Transition = Transition(store: Store, outcome: Outcome)

  /** The JSON body of a booking, its timestamps already parsed. */
  datatype CreateRequest = CreateRequest(espacio: string, inicio: int, fin: int)

  /**
   * Create a booking: validate, insert a row owned by `u`, charge the deposit.
   * An unknown facility passes validation and then fails the insert.
   */
  function CrearReserva(s: Store, u: UserId, req: CreateRequest, now: int): (t: Transition)
    ensures t.outcome.Created?
      <==> ValidatePost(s, u, req.inicio, req.fin, Evaluate(req.espacio), now) == None && Evaluate(req.espacio).Some?
    ensures t.outcome.Invalid? ==> ValidatePost(s, u, req.inicio, req.fin, Evaluate(req.espacio), now) == Some(t.outcome.error)
    ensures t.outcome.Created? ==>
      var r := t.outcome.reserva;
      && t.store.reservas == s.reservas + [r]
      && r == Reserva(s.nextId, Evaluate(req.espacio).value, req.inicio, req.fin, u, now)
      && t.store.nextId == s.nextId + 1
      && FianzaOf(t.store, u) == FianzaOf(s, u) + FIANZA_STEP
      && (forall v :: v != u ==> FianzaOf(t.store, v) == FianzaOf(s, v))
    ensures !t.outcome.Created? ==>
      && t.store.reservas == s.reservas && t.store.nextId == s.nextId
      && (forall v :: FianzaOf(t.store, v) == FianzaOf(s, v))
    ensures t.outcome.Created? || t.outcome.Invalid? || t.outcome == Crash(NullEspacio)
  {
    var espacio := Evaluate(req.espacio);
    var checked := EnsureFianza(s, u);
    match ValidatePost(s, u, req.inicio, req.fin, espacio, now)
    case Some(err) => Transition(checked, Invalid(err))
    case None =>
      match espacio
      case None => Transition(checked, Crash(NullEspacio))
      case Some(e) =>
        var r := Reserva(s.nextId, e, req.inicio, req.fin, u, now);
        Transition(
          Store(s.reservas + [r], checked.fianzas[u := FianzaOf(s, u) + FIANZA_STEP], s.nextId + 1),
          Created(r))
  }

  /**
   * Modify the user's reservation `id`: apply the supplied fields, validate,
   * and save only if validation passes.
   */
  function ModificarReserva(s: Store, u: UserId, id: nat, req: ModifyRequest, now: int): (t: Transition)
    ensures IndexOf(s.reservas, id, u).None? ==> t == Transition(s, Crash(NoSuchReserva))
    ensures IndexOf(s.reservas, id, u).Some? ==>
      var e := ApplyEdit(s.reservas[IndexOf(s.reservas, id, u).value], req);
      && (t.outcome.Modified? <==> ValidatePut(s, u, e, req, now) == None && e.espacio.Some?)
      && (t.outcome.Invalid? ==> ValidatePut(s, u, e, req, now) == Some(t.outcome.error))
      && (t.outcome.Modified? || t.outcome.Invalid? || t.outcome == Crash(NullEspacio))
    ensures !t.outcome.Modified? ==> t.store == s
    ensures t.outcome.Modified? ==>
      var i := IndexOf(s.reservas, id, u).value;
      var r := t.outcome.reserva;
      && t.store == s.(reservas := s.reservas[i := r])
      && r.id == id && r.user == u && r.createdAt == s.reservas[i].createdAt
      && r.inicio == req.inicio.GetOr(s.reservas[i].inicio)
      && r.fin == req.fin.GetOr(s.reservas[i].fin)
      && (Given(req.espacio) ==> Evaluate(req.espacio.value) == Some(r.espacio))
      && (!Given(req.espacio) ==> r.espacio == s.reservas[i].espacio)
      && CountOf(s.reservas, u) < MODIFY_CAP
      && !SlotTaken(s, Some(r.espacio), r.inicio, r.fin)
  {
    match IndexOf(s.reservas, id, u)
    case None => Transition(s, Crash(NoSuchReserva))
    case Some(i) =>
      var e := ApplyEdit(s.reservas[i], req);
      match ValidatePut(s, u, e, req, now)
      case Some(err) => Transition(s, Invalid(err))
      case None =>
        match e.espacio
        case None => Transition(s, Crash(NullEspacio))
        case Some(esp) =>
          var r := s.reservas[i].(espacio := esp, inicio := e.inicio, fin := e.fin);
          Transition(s.(reservas := s.reservas[i := r]), Modified(r))
  }

  /** Delete the user's reservation `id` and refund the deposit, with no lower bound. */
  function EliminarReserva(s: Store, u: UserId, id: nat): (t: Transition)
    ensures IndexOf(s.reservas, id, u).None? ==> t == Transition(s, Crash(NoSuchReserva))
    ensures IndexOf(s.reservas, id, u).Some? ==>
      && t.outcome == Deleted
      && t.store.reservas == WithoutId(s.reservas, id)
      && t.store.nextId == s.nextId
      && FianzaOf(t.store, u) == FianzaOf(s, u) - FIANZA_STEP
      && (forall v :: v != u ==> FianzaOf(t.store, v) == FianzaOf(s, v))
  {
    match IndexOf(s.reservas, id, u)
    case None => Transition(s, Crash(NoSuchReserva))
    case Some(_) =>
      Transition(
        Store(WithoutId(s.reservas, id), s.fianzas[u := FianzaOf(s, u) - FIANZA_STEP], s.nextId),
        Deleted)
  }

  /**
   * The create view always passes the evaluated facility, so an unknown name
   * never falls back to the model's default: the booking is refused or the
   * insert fails, although a reservation built without a facility would get
   * Padel.
   */
  lemma UnknownFacilityNotDefaulted(s: Store, u: UserId, req: CreateRequest, now: int)
    requires Evaluate(req.espacio).None?
    ensures NewReserva(s.nextId, None, req.inicio, req.fin, u, now).espacio == DEFAULT_ESPACIO
    ensures !CrearReserva(s, u, req, now).outcome.Created?
    ensures ValidatePost(s, u, req.inicio, req.fin, None, now) == None
      ==> CrearReserva(s, u, req, now) == Transition(EnsureFianza(s, u), Crash(NullEspacio))
  {
  }

  /** The user's reservations as listed, in table order. */
  function ReservasDe(s: Store, u: UserId): (rs: seq<Reserva>)
    ensures forall r :: r in rs <==> r in s.reservas && r.user == u
  {
    OwnedBy(s.reservas, u)
  }

  /** Deleting a user deletes that user's reservations and no others. */
  function BorrarUsuario(s: Store, u: UserId): (s': Store)
    ensures CountOf(s'.reservas, u) == 0
    ensures forall v :: v != u ==> OwnedBy(s'.reservas, v) == OwnedBy(s.reservas, v)
    ensures s'.fianzas == s.fianzas && s'.nextId == s.nextId
  {
    var s' := s.(reservas := NotOwnedBy(s.reservas, u));
    forall v | v != u ensures OwnedBy(s'.reservas, v) == OwnedBy(s.reservas, v) {
      FilterNarrow(s.reservas, (r: Reserva) => r.user != u, (r: Reserva) => r.user == v);
    }
    FilterDisjoint(s.reservas, (r: Reserva) => r.user != u, (r: Reserva) => r.user == u);
    s'
  }
}

=== FILE: wizard.dfy ===
/**
 * The three-step booking wizard of the client: choose a sport, choose a date
 * and an hour, confirm. Two variants share it: the booking-management page
 * and the stand-alone booking page. A control reacts only while the step
 * holding it is shown, as hidden elements cannot be clicked.
 */
module Wizard {
  import opened Wrappers
  import opened Decimal
  import opened Slots

  datatype Variant = Gestion | Mejorada

  /**
   * The wizard's variables: the current step, the chosen sport, date and hour,
   * the id of the reservation being edited ("" when creating), the rendered
   * slot buttons, and whether the step-1 "next" button is enabled. The step-2
   * button's flag is not kept: it is enabled whenever an hour is chosen, and
   * its handler checks for that hour anyway.
   */
  datatype WizardState = WizardState(
    paso: int,
    deporte: string,
    fecha: string,
    hora: string,
    enEdicion: string,
    grid: seq<Boton>,
    siguiente1Habilitado: bool)

  /** The page as loaded, with the step-1 button disabled as a reset leaves it. */
  const Inicial: WizardState := WizardState(1, "", "", "", "", [], false)

  datatype Event =
    | ElegirDeporte(deporte: string)
    | Siguiente1(hoy: string)
    | CambiarFecha(fecha: string)
    | HorariosCargados(ocupados: seq<string>)
    | ClickHora(index: nat)
    | Siguiente2
    | Atras2
    | Atras3
    | IniciarEdicion(id: string, espacio: string, fechaEdicion: string)
    | Preseleccion(horaEdicion: string)
    | Reset

  /**
   * The event's control is on screen and enabled: step controls only on their
   * own step, and the step-1 button only once enabled.
   */
  predicate Enabled(st: WizardState, ev: Event) {
    match ev
    case ElegirDeporte(_) => st.paso == 1
    case Siguiente1(_) => st.paso == 1 && st.siguiente1Habilitado
    case CambiarFecha(_) => st.paso == 2
    case ClickHora(_) => st.paso == 2
    case Siguiente2 => st.paso == 2
    case Atras2 => st.paso == 2
    case Atras3 => st.paso == 3
    case _ => true
  }

  /** The label a preselection looks for, per variant. */
  function PreselectTarget(v: Variant, hora: string): string {
    match v
    case Gestion => EditLabel(hora)
    case Mejorada => NormalizePreselect(hora)
  }

  /** The effect of an event whose control is on screen. */
  function Apply(v: Variant, st: WizardState, ev: Event): WizardState {
    match ev
    case ElegirDeporte(d) => st.(deporte := d, siguiente1Habilitado := true)
    case Siguiente1(hoy) =>
      if st.deporte == "" then st
      else if v == Mejorada && st.fecha == "" then st.(paso := 2, fecha := hoy)
      else st.(paso := 2)
    case CambiarFecha(f) => st.(fecha := f)
    case HorariosCargados(ocupados) => st.(grid := RenderHoras(ocupados))
    case ClickHora(i) =>
      if i < |st.grid| && !st.grid[i].disabled then st.(hora := st.grid[i].hora) else st
    case Siguiente2 => if st.fecha != "" && st.hora != "" then st.(paso := 3) else st
    case Atras2 => st.(paso := 1)
    case Atras3 => st.(paso := 2)
    case IniciarEdicion(id, espacio, f) =>
      if v == Gestion then st.(enEdicion := id, deporte := espacio, paso := 2, fecha := f)
      else if id == "" then st
      else
        var withSport :=
          if espacio != "" then st.(enEdicion := id, deporte := espacio, siguiente1Habilitado := true)
          else st.(enEdicion := id);
        if f != "" then withSport.(fecha := f, paso := 2) else withSport
    case Preseleccion(h) =>
      if h == "" then st
      else (
        match SelectMatching(st.grid, PreselectTarget(v, h))
        case None => st
        case Some(elegida) => st.(hora := elegida))
    case Reset => if v == Gestion then Inicial else st
  }

  /** One event: applied when its control is on screen, ignored otherwise. */
  function Next(v: Variant, st: WizardState, ev: Event): (st': WizardState)
    ensures !Enabled(st, ev) ==> st' == st
  {
    if Enabled(st, ev) then Apply(v, st, ev) else st
  }

  /**
   * Reachable wizard states: a step from 1 to 3, only slot labels on the
   * buttons and as the chosen hour, and a date and an hour on the last step.
   */
  predicate Inv(st: WizardState) {
    && 1 <= st.paso <= 3
    && (forall i :: 0 <= i < |st.grid| ==> st.grid[i].hora in Horas())
    && (st.hora == "" || st.hora in Horas())
    && (st.paso == 3 ==> st.fecha != "" && st.hora != "")
  }

  lemma InicialInv()
    ensures Inv(Inicial)
  {
  }

  lemma NextPreservesInv(v: Variant, st: WizardState, ev: Event)
    requires Inv(st)
    ensures Inv(Next(v, st, ev))
  {
    if Enabled(st, ev) {
      match ev
      case Preseleccion(h) =>
        if h != "" {
          match SelectMatching(st.grid, PreselectTarget(v, h))
          case None =>
          case Some(elegida) =>
            var i :| 0 <= i < |st.grid| && !st.grid[i].disabled && st.grid[i].hora == elegida;
        }
      case _ =>
    }
  }

  /**
   * Leaving step 1 needs a sport and an enabled button, and only step 1 can
   * be left that way.
   */
  lemma Siguiente1Guard(v: Variant, st: WizardState, hoy: string)
    ensures st.paso == 1 ==>
      (Next(v, st, Siguiente1(hoy)).paso == 2 <==> st.deporte != "" && st.siguiente1Habilitado)
    ensures st.paso == 1 && (st.deporte == "" || !st.siguiente1Habilitado) ==> Next(v, st, Siguiente1(hoy)) == st
    ensures st.paso != 1 ==> Next(v, st, Siguiente1(hoy)) == st
  {
  }

  /**
   * On the stand-alone page a chosen sport always comes with an enabled
   * step-1 button, as its edit mode clicks the sport option; so there step 1
   * is left exactly when a sport is chosen.
   */
  lemma MejoradaSportEnablesNext(st: WizardState, ev: Event, hoy: string)
    requires st.deporte != "" ==> st.siguiente1Habilitado
    ensures var st' := Next(Mejorada, st, ev); st'.deporte != "" ==> st'.siguiente1Habilitado
    ensures st.paso == 1 ==> (Next(Mejorada, st, Siguiente1(hoy)).paso == 2 <==> st.deporte != "")
  {
  }

  /**
   * On the management page, editing sets the sport but never enables the
   * step-1 button: on a freshly loaded page, where the button starts
   * disabled, an edit followed by going back leaves a sport chosen and
   * step 1 impossible to leave. The stand-alone page, opened to edit a
   * reservation with a sport and a date, moves on.
   */
  lemma GestionEditStuckAtStep1(id: string, esp: string, f: string, hoy: string)
    ensures var s := Next(Gestion, Next(Gestion, Inicial, IniciarEdicion(id, esp, f)), Atras2);
      && s.paso == 1 && s.deporte == esp && !s.siguiente1Habilitado
      && Next(Gestion, s, Siguiente1(hoy)) == s
    ensures id != "" && esp != "" && f != "" ==>
      var s := Next(Mejorada, Next(Mejorada, Inicial, IniciarEdicion(id, esp, f)), Atras2);
      s.paso == 1 && s.siguiente1Habilitado && Next(Mejorada, s, Siguiente1(hoy)).paso == 2
  {
  }

  /** Moving on from step 2 needs both a date and an hour. */
  lemma Siguiente2Guard(v: Variant, st: WizardState)
    ensures st.paso == 2 ==> (Next(v, st, Siguiente2).paso == 3 <==> st.fecha != "" && st.hora != "")
    ensures st.paso == 2 && (st.fecha == "" || st.hora == "") ==> Next(v, st, Siguiente2) == st
    ensures st.paso != 2 ==> Next(v, st, Siguiente2) == st
  {
  }

  /** Only an enabled slot button changes the chosen hour, and to its own label. */
  lemma ClickSelectsOnlyEnabled(v: Variant, st: WizardState, i: nat)
    ensures var st' := Next(v, st, ClickHora(i));
      st'.hora != st.hora ==> i < |st.grid| && !st.grid[i].disabled && st'.hora == st.grid[i].hora
    ensures st.paso == 2 && i < |st.grid| && st.grid[i].disabled ==> Next(v, st, ClickHora(i)) == st
  {
  }

  /** On the stand-alone page, moving to step 2 fills an empty date with today's. */
  lemma MejoradaDefaultsDate(st: WizardState, hoy: string)
    requires st.paso == 1 && st.deporte != "" && st.siguiente1Habilitado
    ensures Next(Mejorada, st, Siguiente1(hoy)).fecha == (if st.fecha == "" then hoy else st.fecha)
    ensures Next(Gestion, st, Siguiente1(hoy)).fecha == st.fecha
  {
  }

  /**
   * Showing step `n`: every step panel hidden but step `n`, and the step
   * indicators up to `n` highlighted.
   */
  method MostrarPaso(st: WizardState, n: int) returns (st': WizardState, ocultos: seq<bool>, resaltados: seq<bool>)
    requires 1 <= n <= 3
    ensures st' == st.(paso := n)
    ensures |ocultos| == 3 && |resaltados| == 3
    ensures forall j :: 0 <= j < 3 ==> (ocultos[j] <==> j + 1 != n)
    ensures forall j :: 0 <= j < 3 ==> (resaltados[j] <==> j + 1 <= n)
  {
    ocultos := seq(3, _ => true)[n - 1 := false];
    resaltados := [];
    var k := 1;
    while k <= 3
      invariant 1 <= k <= 4 && |resaltados| == k - 1
      invariant forall j :: 0 <= j < k - 1 ==> (resaltados[j] <==> j + 1 <= n)
    {
      resaltados := resaltados + [k <= n];
      k := k + 1;
    }
    st' := st.(paso := n);
  }

  /**
   * Changing the date at step 2 keeps the chosen hour and the rendered
   * slots until the new date's slots load; elsewhere the date input is
   * hidden and nothing changes.
   */
  lemma CambiarFechaKeepsHour(v: Variant, st: WizardState, f: string)
    ensures st.paso == 2 ==> Next(v, st, CambiarFecha(f)) == st.(fecha := f)
    ensures st.paso != 2 ==> Next(v, st, CambiarFecha(f)) == st
  {
  }

  /**
   * An hour chosen on one date survives a change to a date on which it is
   * occupied: after the new date's slots load, its button is disabled, yet
   * step 2 is left and the submission books that hour on the new date.
   */
  lemma StaleHourSubmitted(v: Variant, st: WizardState, i: nat, f: string, ocupados: seq<string>)
    requires Inv(st)
    requires st.paso == 2 && st.deporte != "" && f != ""
    requires i < |st.grid| && !st.grid[i].disabled && st.grid[i].hora in ocupados
    ensures var s1 := Next(v, st, ClickHora(i));
      var s2 := Next(v, s1, CambiarFecha(f));
      var s3 := Next(v, s2, HorariosCargados(ocupados));
      var s4 := Next(v, s3, Siguiente2);
      && s4.paso == 3 && s4.fecha == f && s4.hora == st.grid[i].hora
      && s4.hora !in Selectable(s4.grid)
      && Submit(s4).Peticion? && Submit(s4).inicio == MomentoInicio(f, st.grid[i].hora)
  {
    HorasShape();
    var s1 := Next(v, st, ClickHora(i));
    assert s1 == st.(hora := st.grid[i].hora);
    var s3 := Next(v, Next(v, s1, CambiarFecha(f)), HorariosCargados(ocupados));
    assert s3 == s1.(fecha := f, grid := RenderHoras(ocupados));
    SelectableIffFree(ocupados, s3.hora);
  }

  /** The back buttons return one step and change nothing else. */
  lemma BackButtons(v: Variant, st: WizardState)
    ensures st.paso == 2 ==> Next(v, st, Atras2) == st.(paso := 1)
    ensures st.paso == 3 ==> Next(v, st, Atras3) == st.(paso := 2)
    ensures st.paso != 2 ==> Next(v, st, Atras2) == st
    ensures st.paso != 3 ==> Next(v, st, Atras3) == st
  {
  }

  /**
   * Loading the slots of a date renders the occupied ones disabled, so a
   * click at step 2 either leaves the hour alone or picks a free slot; a
   * free slot's button always picks it, an occupied one does nothing.
   */
  lemma LoadedSlotsGuardClicks(v: Variant, st: WizardState, ocupados: seq<string>, i: nat)
    requires st.paso == 2
    ensures var st1 := Next(v, st, HorariosCargados(ocupados));
      var st2 := Next(v, st1, ClickHora(i));
      && st1 == st.(grid := RenderHoras(ocupados))
      && (st2.hora == st.hora || (st2.hora in Horas() && st2.hora !in ocupados))
      && (i < |Horas()| && Horas()[i] !in ocupados ==> st2 == st1.(hora := Horas()[i]))
      && (i < |Horas()| && Horas()[i] in ocupados ==> st2 == st1)
  {
    var grid := RenderHoras(ocupados);
    if i < |Horas()| {
      assert grid[i] == Boton(Horas()[i], Horas()[i] in ocupados);
    }
  }

  /**
   * Over a rendered grid, the bare hour number the management page passes
   * when editing preselects the slot of hour `h` exactly when it is free.
   */
  lemma PreselectionGestion(st: WizardState, ocupados: seq<string>, h: nat)
    requires st.grid == RenderHoras(ocupados)
    requires FIRST_HOUR <= h < FIRST_HOUR + SLOT_COUNT
    ensures Next(Gestion, st, Preseleccion(Show(h)))
      == if SlotLabel(h) in ocupados then st else st.(hora := SlotLabel(h))
  {
    var found := SlotFoundWhenFree(ocupados, h);
    assert PreselectTarget(Gestion, Show(h)) == SlotLabel(h) by { PreselectFindsSlot(h); }
    PreselectStep(Gestion, st, Show(h), found);
  }

  /**
   * Over a rendered grid, the slot label the stand-alone page receives
   * preselects the slot of hour `h` exactly when it is free.
   */
  lemma PreselectionMejorada(st: WizardState, ocupados: seq<string>, h: nat)
    requires st.grid == RenderHoras(ocupados)
    requires FIRST_HOUR <= h < FIRST_HOUR + SLOT_COUNT
    ensures Next(Mejorada, st, Preseleccion(SlotLabel(h)))
      == if SlotLabel(h) in ocupados then st else st.(hora := SlotLabel(h))
  {
    var found := SlotFoundWhenFree(ocupados, h);
    assert PreselectTarget(Mejorada, SlotLabel(h)) == SlotLabel(h) by { PreselectFindsSlot(h); }
    SlotLabelShape(h);
    PreselectStep(Mejorada, st, SlotLabel(h), found);
  }

  /**
   * On the stand-alone page a morning label without its leading zero, such
   * as "9:00", is padded back and preselects the same slot.
   */
  lemma PreselectionMejoradaUnpadded(st: WizardState, ocupados: seq<string>, h: nat)
    requires st.grid == RenderHoras(ocupados)
    requires FIRST_HOUR <= h < 10
    ensures |SlotLabel(h)| == 5
    ensures Next(Mejorada, st, Preseleccion(SlotLabel(h)[1..]))
      == if SlotLabel(h) in ocupados then st else st.(hora := SlotLabel(h))
  {
    var found := SlotFoundWhenFree(ocupados, h);
    SlotLabelShape(h);
    assert PreselectTarget(Mejorada, SlotLabel(h)[1..]) == SlotLabel(h) by { PreselectFindsSlot(h); }
    PreselectStep(Mejorada, st, SlotLabel(h)[1..], found);
  }

  /** A non-empty edit hour sets the hour to the preselected slot, if any. */
  lemma PreselectStep(v: Variant, st: WizardState, horaEdicion: string, found: Option<string>)
    requires horaEdicion != ""
    requires found == SelectMatching(st.grid, PreselectTarget(v, horaEdicion))
    ensures Next(v, st, Preseleccion(horaEdicion)) == if found.Some? then st.(hora := found.value) else st
  {
  }

  /** The slot of hour `h` on a rendered grid is found exactly when it is free. */
  lemma SlotFoundWhenFree(ocupados: seq<string>, h: nat) returns (found: Option<string>)
    requires FIRST_HOUR <= h < FIRST_HOUR + SLOT_COUNT
    ensures found == SelectMatching(RenderHoras(ocupados), SlotLabel(h))
    ensures found == if SlotLabel(h) in ocupados then None else Some(SlotLabel(h))
  {
    assert Horas()[h - FIRST_HOUR] == SlotLabel(h);
    SelectMatchingOnRendered(ocupados, SlotLabel(h));
    found := SelectMatching(RenderHoras(ocupados), SlotLabel(h));
  }

  /**
   * Entering edit mode: the management page always records the id, the sport
   * and the date and moves to step 2, leaving the step-1 button as it was;
   * the stand-alone page, opened with a non-empty id, records the id, takes a
   * given sport (enabling the button) and moves to step 2 only when given a
   * date; an empty id is not an edit there and changes nothing.
   */
  lemma EditEntry(st: WizardState, id: string, esp: string, f: string)
    ensures var g := Next(Gestion, st, IniciarEdicion(id, esp, f));
      && g.paso == 2 && g.enEdicion == id && g.deporte == esp && g.fecha == f
      && g.siguiente1Habilitado == st.siguiente1Habilitado && g.hora == st.hora && g.grid == st.grid
    ensures id == "" ==> Next(Mejorada, st, IniciarEdicion(id, esp, f)) == st
    ensures id != "" ==>
      var m := Next(Mejorada, st, IniciarEdicion(id, esp, f));
      && m.enEdicion == id
      && m.deporte == (if esp != "" then esp else st.deporte)
      && m.siguiente1Habilitado == (esp != "" || st.siguiente1Habilitado)
      && m.paso == (if f != "" then 2 else st.paso)
      && m.fecha == (if f != "" then f else st.fecha)
      && m.hora == st.hora && m.grid == st.grid
  {
  }

  /** A run of events, each applied to the state the previous one left. */
  function Run(v: Variant, st: WizardState, evs: seq<Event>): WizardState {
    RunFrom(v, st, evs, 0)
  }

  /** The events of `evs` from index `i` on, applied in order to `st`. */
  function RunFrom(v: Variant, st: WizardState, evs: seq<Event>, i: nat): WizardState
    requires i <= |evs|
    decreases |evs| - i
  {
    if i == |evs| then st else RunFrom(v, Next(v, st, evs[i]), evs, i + 1)
  }

  /**
   * Only entering edit mode sets the edited id: without it a run keeps the
   * id, except that a reset on the management page clears it.
   */
  lemma RunKeepsEdit(v: Variant, st: WizardState, evs: seq<Event>)
    requires forall k :: 0 <= k < |evs| ==> !evs[k].IniciarEdicion?
    ensures Run(v, st, evs).enEdicion == st.enEdicion || Run(v, st, evs).enEdicion == ""
    ensures v == Mejorada ==> Run(v, st, evs).enEdicion == st.enEdicion
    ensures (forall k :: 0 <= k < |evs| ==> !evs[k].Reset?) ==> Run(v, st, evs).enEdicion == st.enEdicion
  {
    RunFromKeepsEdit(v, st, evs, 0);
  }

  /** `RunKeepsEdit` for the events from index `i` on, by induction over the remaining events. */
  lemma {:induction false} RunFromKeepsEdit(v: Variant, st: WizardState, evs: seq<Event>, i: nat)
    requires i <= |evs|
    requires forall k :: i <= k < |evs| ==> !evs[k].IniciarEdicion?
    ensures RunFrom(v, st, evs, i).enEdicion == st.enEdicion || RunFrom(v, st, evs, i).enEdicion == ""
    ensures v == Mejorada ==> RunFrom(v, st, evs, i).enEdicion == st.enEdicion
    ensures (forall k :: i <= k < |evs| ==> !evs[k].Reset?) ==> RunFrom(v, st, evs, i).enEdicion == st.enEdicion
    decreases |evs| - i
  {
    if i < |evs| {
      var st1 := Next(v, st, evs[i]);
      assert st1.enEdicion == st.enEdicion || st1.enEdicion == "";
      assert v == Mejorada || !evs[i].Reset? ==> st1.enEdicion == st.enEdicion;
      RunFromKeepsEdit(v, st1, evs, i + 1);
    }
  }

  /**
   * After entering edit mode for `id`, a complete submission is a PUT to the
   * modify URL of `id`, whatever is chosen afterwards short of another edit
   * or a reset.
   */
  lemma EditSubmitsPut(v: Variant, st: WizardState, id: string, esp: string, f: string, evs: seq<Event>)
    requires id != ""
    requires forall k :: 0 <= k < |evs| ==> !evs[k].IniciarEdicion? && !evs[k].Reset?
    ensures var e := Submit(Run(v, Next(v, st, IniciarEdicion(id, esp, f)), evs));
      e.Peticion? ==> e.metodo == Put && e.url == MODIFICAR_PREFIX + id + "/"
  {
    var editing := Next(v, st, IniciarEdicion(id, esp, f));
    assert editing.enEdicion == id;
    RunKeepsEdit(v, editing, evs);
    var fin := Run(v, editing, evs);
    if Submit(fin).Peticion? {
      SubmitDispatch(fin);
    }
  }

  /** From a fresh page, without entering edit mode, a complete submission is a POST to the create URL. */
  lemma FreshSubmitsPost(v: Variant, evs: seq<Event>)
    requires forall k :: 0 <= k < |evs| ==> !evs[k].IniciarEdicion?
    ensures var e := Submit(Run(v, Inicial, evs));
      e.Peticion? ==> e.metodo == Post && e.url == CREAR_URL
  {
    RunKeepsEdit(v, Inicial, evs);
    var nuevo := Run(v, Inicial, evs);
    if Submit(nuevo).Peticion? {
      SubmitDispatch(nuevo);
    }
  }

  /** Reset forgets every choice and the edit, and returns to step 1. */
  lemma ResetClearsAll(st: WizardState, hoy: string)
    ensures Next(Gestion, st, Reset) == Inicial
    ensures Next(Gestion, Next(Gestion, st, Reset), Reset) == Next(Gestion, st, Reset)
    ensures Next(Gestion, Next(Gestion, st, Reset), Siguiente1(hoy)).paso == 1
  {
  }

  // ---------------------------------------------------------------------------
  // Submission

  datatype Metodo = Post | Put

  /** What submitting the form does: nothing when data is missing, or one request. */
  datatype Envio =
    | Incompleto
    | Peticion(metodo: Metodo, url: string, espacio: string, inicio: string, fin: string)

  const CREAR_URL: string := "/reservas/crear/"
  const MODIFICAR_PREFIX: string := "/reservas/modificar/"

  function Submit(st: WizardState): (e: Envio) {
    if st.deporte == "" || st.fecha == "" || st.hora == "" then Incompleto
    else
      var editing := st.enEdicion != "";
      Peticion(
        if editing then Put else Post,
        if editing then MODIFICAR_PREFIX + st.enEdicion + "/" else CREAR_URL,
        st.deporte,
        MomentoInicio(st.fecha, st.hora),
        MomentoFin(st.fecha, st.hora))
  }

  /** The reservation id a modify URL names, or None for any other URL. */
  function ModifyTarget(url: string): Option<string> {
    var n := |MODIFICAR_PREFIX|;
    if |url| > n + 1 && url[..n] == MODIFICAR_PREFIX && url[|url| - 1] == '/'
    then Some(url[n..|url| - 1])
    else None
  }

  /** Submitting is refused exactly when the sport, the date or the hour is missing. */
  lemma SubmitRefusedIff(st: WizardState)
    ensures Submit(st).Incompleto? <==> st.deporte == "" || st.fecha == "" || st.hora == ""
  {
  }

  /**
   * A request edits exactly when a reservation is being edited: then it is a
   * PUT to the modify URL naming that reservation, otherwise a POST to the
   * create URL.
   */
  lemma SubmitDispatch(st: WizardState)
    requires Submit(st).Peticion?
    ensures Submit(st).metodo == Put <==> st.enEdicion != ""
    ensures st.enEdicion != "" ==> ModifyTarget(Submit(st).url) == Some(st.enEdicion)
    ensures st.enEdicion == "" ==> Submit(st).url == CREAR_URL && ModifyTarget(Submit(st).url).None?
  {
    var url := Submit(st).url;
    if st.enEdicion != "" {
      assert url[..|MODIFICAR_PREFIX|] == MODIFICAR_PREFIX;
      assert url[|MODIFICAR_PREFIX|..|url| - 1] == st.enEdicion;
    }
  }

  /**
   * From any reachable state, a submission carries the same date in both
   * strings and times exactly one hour apart, both on the hour.
   */
  lemma SubmitSendsOneHourSlot(st: WizardState)
    requires Inv(st)
    requires Submit(st).Peticion?
    ensures Submit(st).espacio == st.deporte
    ensures var p := Submit(st);
      && |p.inicio| >= |st.fecha| + 1 && |p.fin| >= |st.fecha| + 1
      && p.inicio[..|st.fecha| + 1] == st.fecha + "T" == p.fin[..|st.fecha| + 1]
    ensures |st.hora| == 5 && AllDigits(st.hora[..2])
    ensures var p := Submit(st); var start := Models.Hours(Value(st.hora[..2]));
      && |p.inicio| >= |st.fecha| + 1 && |p.fin| >= |st.fecha| + 1
      && ClockSeconds(TimePart(st.fecha, p.inicio)) == Some(start)
      && ClockSeconds(TimePart(st.fecha, p.fin)) == Some(start + Models.HOUR)
  {
    SubmitFields(st);
    SlotRequestShape(st.fecha, st.hora);
  }

  /** A request carries the chosen sport and the moments of the chosen date and hour. */
  lemma SubmitFields(st: WizardState)
    requires Inv(st)
    requires Submit(st).Peticion?
    ensures st.hora in Horas()
    ensures Submit(st).espacio == st.deporte
    ensures Submit(st).inicio == MomentoInicio(st.fecha, st.hora)
    ensures Submit(st).fin == MomentoFin(st.fecha, st.hora)
  {
  }



}

=== FILE: wrappers.dfy ===
/** Optional values, used wherever the source returns `None` or a value. */
module Wrappers {

  datatype Option<+T> = None | Some(value: T) {

    /** The encapsulated value, or `default` when there is none. */
    function GetOr(default: T): T {
      match this
      case Some(v) => v
      case None => default
    }
  }
}
